=== FILE: README.md ===
# Shift booking over a spreadsheet, modelled in Dafny

The system is a Messenger chatbot that lets employees book and cancel shifts.

- **Server.** A webhook server receives a user's message. A language model turns the text into a list of shift candidates: an action ("add" or "delete"), a weekday, a start time and an end time. The server applies each candidate, in order, to a shared Google Sheet through a small shift service. It answers each candidate with one reply line and sends the lines back joined as one message.
- **Sheet layout.** The sheet has one row per employee, found by matching the employee's first name. Each weekday has a pair of columns, found by matching the day's name: the start time goes in the first column and the end time in the one to its right. Two header rows sit above the employee rows.
- **Rules the service enforces:**
  - only Monday to Friday;
  - both times between 9am and 6pm, with the end after the start;
  - one shift per employee and day;
  - at most three employees per day.

The model has seven modules:

| file | module | contents |
|---|---|---|
| `base.dfy` | `Base` | the `Option` type |
| `text.dfy` | `Text` | the Python string operations the code relies on: `strip`, `replace`, `in`, `int()`, `str()`, `join`, ASCII case folding |
| `sheet.dfy` | `Sheet` | the worksheet (see below) |
| `validator.dfy` | `Validator` | time conversion and validation, the weekday check |
| `shift_service.dfy` | `ShiftService` | the store: each check and each operation |
| `store_properties.dfy` | `StoreProperties` | what the store's operations guarantee, alone and in sequence |
| `webhook_server.dfy` | `Webhook` | the dispatch loop of `process_message` and the reply texts |

The worksheet appears in two forms:

- `Grid` is its contents as a value. Finding a cell is the first case-insensitive substring match, reading row by row. A cell that is absent reads as "".
- `Worksheet` is the mutable object the service writes to. `UpdateCell` refuses a cell outside the grid.

Each store operation and the dispatch loop appear in two forms:

- a function of the sheet's contents (`InsertStep`, `DeleteStep`, `ReadShift`, `Dispatch`, `Process`);
- a method on a `Worksheet` (`InsertShift`, `DeleteShift`, `ReadShiftFrom`, `ProcessMessage`) that performs the same checks, reads and writes in the same order, whose postcondition ties its result and the new sheet to that function. `ReadShiftFrom` changes nothing.

The properties are proved on the functions.

An exception that escapes an operation is modelled as `Raised` (store) or `None` (replies). Cases that raise:

- a time that `int()` cannot read;
- a weekday that has no label cell in the sheet;
- an end cell that lies outside the grid. In that case the start cell has already been written, as the two separate `update_cell` calls leave it.

When any candidate raises, `process_message` sends nothing.

Places where the model follows the code rather than the documented intent:

- `to_24_hour_format("12am")` is 12, not 0. The code removes "am" and adds nothing. So "12am" passes the 9-to-18 window as noon (`Validator.TwelveAmIsTwelve`), and `_to_12_hour_format(0)` reads back as 12 (`Validator.MidnightReadsAsNoon`).
- `webhook_server.py:25` and `:111` name `shift_service.ERROR_INVALID_ACTION`, but `shift_service.py:10-17` does not define it, so importing the server as written fails. The model gives an unknown action the table's entry for that key, "The action you requested is invalid. Please specify 'add' or 'delete'." (`Webhook.InvalidActionMessage`).
- The reply prefixes are the characters the source file holds. These are the UTF-8 bytes of the check-mark, cross, calendar and clock emoji read as Windows-1252 (for example U+00E2 U+0152 for the cross), not the emoji themselves.
- `delete_shift` does not check the day. A day with no label cell raises there, as it does in `_insert_shift` and `read_shift`.

## Model

| member | source | states |
|---|---|---|
| Text.StripEmptyIff | shift_service.py:174 | `value.strip()` is empty exactly when every character of `value` is whitespace |
| Text.ReplaceSkips | shift_service.py:144 | `replace` leaves a prefix that lacks the pattern's first character untouched, whatever follows it |
| Text.ParseNatToString | shift_service.py:151-159 | `int(str(n)) == n` for every natural number |
| Text.ParseIntChars | shift_service.py:144 | whatever `int()` accepts consists of whitespace, signs, digits and underscores, with at least one digit |
| Text.JoinContains | webhook_server.py:116 | every part of a `"\n\n".join(...)` occurs in the joined text |
| Validator.To12Hour | shift_service.py:150-159 | the 12-hour form is a numeral (ending in a digit) followed by "pm" exactly for hours from 12 on, and by "am" exactly for hours before 12 |
| Validator.IsValidTime | shift_service.py:119-133 | raises exactly when either time fails to read as an hour; otherwise true exactly when both hours lie in 9..18 and the end is after the start |
| Validator.AmTime | shift_service.py:143-147 | a digit string followed by "am" reads as the number the digits denote |
| Validator.PmTime | shift_service.py:143-147 | a digit string followed by "pm" reads as that number plus 12, except 12pm, which reads as 12 |
| Validator.AmHour | shift_service.py:143-147 | `str(n) + "am"` reads as n |
| Validator.PmHour | shift_service.py:143-147 | `str(n) + "pm"` reads as n + 12, or 12 for n = 12 |
| Validator.TwelveAmIsTwelve | shift_service.py:143-147 | "12am" reads as 12 (noon), not 0 |
| Validator.MorningRoundTrip | shift_service.py:150-159 | converting an hour 1..11 to 12-hour form and back gives the hour |
| Validator.NoonRoundTrip | shift_service.py:150-159 | converting 12 to "12pm" and back gives 12 |
| Validator.AfternoonRoundTrip | shift_service.py:150-159 | converting an hour 13..23 to 12-hour form and back gives the hour |
| Validator.RoundTrip | shift_service.py:143-159 | `to_24_hour_format(_to_12_hour_format(h)) == h` for every hour 1..23 |
| Validator.MidnightReadsAsNoon | shift_service.py:143-159 | hour 0 becomes "12am", which reads back as 12 |
| Validator.To24Hour | shift_service.py:143-147 | a time that reads as an hour holds only numeral characters and the letters a, m and p, with at least one digit |
| Validator.NotANumber | shift_service.py:143-147 | any other character in a time makes the conversion raise |
| Validator.TimeIsFilled | shift_service.py:143-147 | a time that reads as an hour is not blank |
| Validator.TimeIsNotADay | shift_service.py:136-147 | no time that reads as an hour contains a weekday name, in any case |
| Validator.IsValidDay | shift_service.py:136-140 | an accepted day is a capitalised name of 6 to 9 letters ending in "day" |
| Validator.DayIsCaseSensitive | shift_service.py:136-140 | the day check is case-sensitive: a lower-cased weekday name is refused |
| Validator.WindowAccepted | shift_service.py:119-133 | any start and end hours in 9..18 with the end later, written in 12-hour form, are accepted |
| Validator.WindowRejected | shift_service.py:119-133 | readable times outside 9..18, or with the end not after the start, are refused |
| Sheet.EmptyMatches | shift_service.py:113 | an empty cell matches a pattern only when the pattern matches every cell |
| Sheet.Grid.Find | shift_service.py:113 | the result matches, lies in the grid and no earlier cell (row by row) matches; none exactly when no cell matches |
| Sheet.Grid.Write | shift_service.py:57-58 | one write sets its cell and leaves every other cell and the dimensions unchanged |
| Sheet.TrimTrailingEmpty | shift_service.py:171 | `col_values` drops only trailing empty cells: a prefix of the column ending in a non-empty value |
| Sheet.Grid.ColValues | shift_service.py:171 | `col_values` lists the column's cells from the top row, ends in a non-empty value, and every cell below its end is empty |
| Sheet.FindStable | shift_service.py:45-46 | a search keeps its result when its match still matches and no earlier cell newly matches |
| Sheet.FindRowStable | shift_service.py:45 | a search keeps its row when its match still matches and earlier rows are unchanged |
| Sheet.WriteColumn | shift_service.py:171 | a write changes only its own column's entry at its own row |
| Sheet.Worksheet.UpdateCell | shift_service.py:57-58 | a write inside the grid updates exactly that cell; outside it is refused and changes nothing |
| ShiftService.IsValidEmployee | shift_service.py:107-116 | the name is valid exactly when some cell of the sheet matches it |
| ShiftService.Slot | shift_service.py:45-49 | the addressed cell exists exactly when both labels are found, and sits in the name's row and the day's column |
| ShiftService.EntryExists | shift_service.py:162-166 | a cell the entry check finds empty holds no booking, so it adds nothing to its day's count |
| ShiftService.DayLimitReached | shift_service.py:169-178 | the limit check on `col_values` holds exactly when the column holds at least 3 bookings below the headers |
| ShiftService.BookedIffStripped | shift_service.py:174 | a value counts as a booking exactly when its `strip()` is non-empty |
| ShiftService.InsertStep | shift_service.py:32-59 | any returned code other than success leaves the sheet unchanged; the dimensions never change |
| ShiftService.PlaceShift | shift_service.py:48-59 | an existing entry or a full day is reported without any write |
| ShiftService.DeleteStep | shift_service.py:61-77 | any returned code other than success leaves the sheet unchanged |
| ShiftService.ReadShift | shift_service.py:80-104 | a returned record carries the requested name and day and the values of the addressed start cell (non-empty) and of the cell right of it; no shift is returned exactly when the name and day are valid, the pair is found and its start cell is empty |
| ShiftService.InsertShift | shift_service.py:32-59 | the method's code and resulting sheet are those of `InsertStep` on the old sheet |
| ShiftService.Place | shift_service.py:48-59 | the method's code and resulting sheet are those of `PlaceShift` on the old sheet |
| ShiftService.DeleteShift | shift_service.py:61-77 | the method's code and resulting sheet are those of `DeleteStep` on the old sheet |
| ShiftService.ReadShiftFrom | shift_service.py:80-104 | the method changes nothing and returns what `ReadShift` gives for the sheet |
| ShiftService.TrimKeepsCount | shift_service.py:171-174 | dropping trailing empty cells does not change the count of bookings below the headers |
| ShiftService.UpdateCount | shift_service.py:174 | replacing one value changes the count by what the old and new values contribute |
| ShiftService.DropUpdate | shift_service.py:174 | a write above row 3 leaves `values[2:]` as it is; a write below shifts into it by two |
| ShiftService.WriteBookings | shift_service.py:57-58 | a write changes the bookings of its own column only, and only below the header rows |
| StoreProperties.InsertSucceedsIff | shift_service.py:32-59 | a booking succeeds exactly when the name is found, the day is a weekday, the times are valid, the slot is found and empty, the day has fewer than 3 bookings and the end cell is in the grid |
| StoreProperties.PlaceCodes | shift_service.py:48-59 | placing a pair reports an existing entry exactly when the start cell is filled, a full day exactly when it is empty and the day has reached its limit, success exactly when both checks pass and the end cell is in the grid, and no other code |
| StoreProperties.InsertReachesPlace | shift_service.py:38-49 | once the name, the day and the times are accepted and both labels are found, booking is placing the pair at the found cell |
| StoreProperties.InsertInputErrorsIff | shift_service.py:38-42 | the invalid-name code is returned exactly when the name is not found; the invalid-time code exactly when the name is found and the day is not a weekday or the times are refused |
| StoreProperties.InsertSlotErrorsIff | shift_service.py:38-54 | the entry-exists code is returned exactly when every input check passed and the start cell is filled; the day-limit code exactly when the start cell is empty too and the day already has 3 bookings |
| StoreProperties.InsertSuccessShape | shift_service.py:32-59 | after a success, every check passed and the sheet is the start write followed by the end write |
| StoreProperties.InsertWritesPair | shift_service.py:56-59 | a success writes the start time and the end time into the pair and changes no other cell |
| StoreProperties.InsertRaisesIff | shift_service.py:32-59 | a booking raises exactly when a time is unreadable, the day label is missing, or the end cell is outside the grid; then the sheet is unchanged or holds only the new start time |
| StoreProperties.ValidTimeIsBooked | shift_service.py:174 | accepted times are never blank, so a booked start cell counts toward its day |
| StoreProperties.InsertRespectsDayLimit | shift_service.py:52-58 | a success adds exactly one booking to the day (below the headers), never exceeds 3, and leaves the counts of every column other than the day and the pair's end column alone |
| StoreProperties.InsertKeepsLimit | shift_service.py:48-59 | whatever the outcome (a success, an error code, or a raise that leaves the start time written), no day column goes over 3 bookings, and every day other than the slot's keeps its count; the pair's end column holds end times and is not a day column |
| StoreProperties.ReadOutcomesIff | shift_service.py:80-104 | a read returns the invalid-name code exactly when the name is not found, the invalid-time code exactly when the name is found and the day is not a weekday, and no other code; it raises exactly when the day label is missing or a filled pair runs off the sheet; it returns the record exactly when the pair is found, filled and inside the sheet |
| StoreProperties.SlotKept | shift_service.py:45-46 | rewriting only the pair, with values that do not newly match the day, leaves the request addressing the same pair |
| StoreProperties.InsertKeepsSlot | shift_service.py:45-58 | after a booking the request still addresses the same pair |
| StoreProperties.ClearKeepsSlot | shift_service.py:71-76 | after the pair is cleared the request still addresses the same pair |
| StoreProperties.InsertThenRead | shift_service.py:80-104 | reading right after a successful booking returns the booked start and end times with the request's name and day |
| StoreProperties.InsertOnFilledSlot | shift_service.py:48-50 | a request for a filled slot never writes, and with valid inputs reports the existing entry |
| StoreProperties.InsertTwice | shift_service.py:32-59 | a second booking of a booked slot never succeeds and changes nothing; with valid times it reports the existing entry |
| StoreProperties.DeleteSucceedsIff | shift_service.py:61-77 | a deletion succeeds exactly when the name and day labels are found and the end cell is in the grid, and raises exactly when a label or the end cell is missing |
| StoreProperties.DeleteClears | shift_service.py:74-77 | a successful deletion empties both cells of the pair and touches nothing else |
| StoreProperties.DeleteNeverAddsBookings | shift_service.py:74-76 | a deletion, whatever its outcome, never raises any day's count |
| StoreProperties.DeleteThenRead | shift_service.py:80-104 | after a deletion the slot reads as no shift (or as an invalid day, for a non-weekday) |
| StoreProperties.DeleteIdempotent | shift_service.py:61-77 | deleting again succeeds and leaves the same contents |
| StoreProperties.DeleteSuccessShape | shift_service.py:61-77 | after a success the sheet is the two clearing writes of the pair |
| StoreProperties.InsertThenDelete | shift_service.py:61-77 | deleting a booking just made succeeds and gives the day back its count, with the pair empty and everything else as before the booking |
| StoreProperties.InsertIntoClearedPair | shift_service.py:48-59 | a booking that succeeded succeeds again on a sheet that differs only in the pair, with an empty start cell and the same count, with the same result |
| StoreProperties.InsertDeleteInsert | shift_service.py:32-77 | book, delete and book again all succeed, and the sheet ends as the first booking left it |
| StoreProperties.RestoredBookings | shift_service.py:174 | booking an empty start cell and then clearing the pair restores the day's count |
| Webhook.ErrorMessage | webhook_server.py:24-30 | the lookup gives the unknown-error default exactly for a code the table lacks, and otherwise one of the table's entries |
| Webhook.DistinctMessages | webhook_server.py:24-30 | two different codes of the table get different messages |
| Webhook.StoreCodesHaveMessages | webhook_server.py:24-30 | every failure code the store returns has an entry, so the unknown-error default is never used |
| Webhook.MarksDiffer | webhook_server.py:131-139 | confirmations start with the check mark and error replies do not |
| Webhook.ScheduledTextNamesShift | webhook_server.py:131-135 | the booking confirmation contains the name, the day and both times |
| Webhook.RemovedTextNamesShift | webhook_server.py:148-149 | the removal confirmation contains the name and the day |
| Webhook.InsertText | webhook_server.py:127-141 | the booking reply starts with the check mark exactly when the store succeeded, and then names the employee, the day and both times |
| Webhook.DeleteText | webhook_server.py:144-154 | the deletion reply starts with the check mark exactly when the store succeeded, and then names the employee and the day |
| Webhook.Handle | webhook_server.py:88-112 | only an "add" or "delete" candidate can raise or change the sheet; the sheet keeps its size |
| Webhook.Dispatch | webhook_server.py:85-112 | a run that does not raise has exactly one reply per candidate; only a non-empty run can raise |
| Webhook.Process | webhook_server.py:70-124 | a message is sent only for an event with a text and a sender, and only to that sender; with no candidates it is the fallback text |
| Webhook.InsertShift | webhook_server.py:127-141 | the method's reply and resulting sheet are those of handling an "add" candidate |
| Webhook.DeleteShift | webhook_server.py:144-154 | the method's reply and resulting sheet are those of handling a "delete" candidate |
| Webhook.HandleCandidate | webhook_server.py:91-112 | one loop pass's reply and resulting sheet are those of the handler |
| Webhook.RunCandidates | webhook_server.py:85-112 | the replies the loop collects and the resulting sheet are those of `Dispatch` on the old sheet |
| Webhook.ProcessMessage | webhook_server.py:70-124 | what the method sends and the resulting sheet are those of `Process` on the old sheet |
| Webhook.DispatchStopsAtRaise | webhook_server.py:88-124 | once a candidate raises, later candidates are not handled |
| Webhook.OneReplyPerCandidate | webhook_server.py:88-112 | a run that does not raise has one reply per candidate, in order, each produced on the sheet its predecessors left |
| Webhook.RaisesIff | webhook_server.py:88-124 | a run raises exactly when some candidate raises on the sheet its predecessors left |
| Webhook.InvalidActionTouchesNothing | webhook_server.py:110-112 | an action other than "add" or "delete" gets the invalid-action reply and leaves the sheet alone |
| Webhook.InvalidActionsTouchNothing | webhook_server.py:88-112 | a run of such candidates answers each with that reply and leaves the sheet unchanged |
| Webhook.NoTextNothingSent | webhook_server.py:73-76 | an event without its messaging entry, text or sender sends nothing and changes nothing |
| Webhook.NoCandidatesFallback | webhook_server.py:115-119 | with no candidates exactly the fallback text is sent to the sender and the sheet is untouched |
| Webhook.SentIffNoRaise | webhook_server.py:114-124 | a message is sent exactly when no candidate raised; it goes to the sender and contains every reply |

## Left out

- Regular expressions: `re.compile(name, re.IGNORECASE)` is modelled as a case-insensitive substring test. Metacharacters in a name or day, and full Unicode case folding, are not modelled; case folding is ASCII only.
- Whitespace for `strip()` and `int()` covers the Latin-1 range only, and `int()` reads ASCII digits only.
- `_to_12_hour_format` takes an integer here. Its own `int(time_str)` call on a string is not modelled.
- `read_shift`'s unused `start_time` and `end_time` parameters are dropped. An empty end cell reads as "" where the sheet API returns `None`.
- `Webhook.Candidate`: fields are strings. A field missing from the language model's JSON (`None` from `.get`) is not modelled.
- Sheet setup (`initialise`, the lazy global `_worksheet`, credentials) is left out: the worksheet is passed in.
- `parse_message` (the Gemini call and JSON decoding): its output is a parameter, the list of candidates.
- `get_user_name`: the first name is a parameter. Its "there" default on an HTTP failure is not modelled.
- `send_message`: the message it would post is returned instead; a failed HTTP post is not modelled.
- The FastAPI endpoints `verify` and `receive_message`, background task scheduling, logging, and `main.py` are not part of this model.
- Concurrency: two requests interleaving between a check and its writes, including the day limit race, is not modelled. Every operation runs alone.
- The sheet service is taken to raise `CellNotFound` when a search finds nothing, which `_is_valid_employee` (shift_service.py:112-116) relies on to answer an unknown name with the invalid-name code. A service whose `find` returns `None` instead would make an unknown name raise at line 49; that behaviour is not modelled.
- A written cell is taken to read back exactly as written: the sheet does not reinterpret "9am" as a time or number value. `StoreProperties.InsertThenRead` depends on this.
- Exceptions are not distinguished by type. `KeyError` and every other exception end processing the same way.
- StoreProperties.LabelsOutsidePair: the composition lemmas (read after insert, double insert, delete then read, idempotent delete, insert–delete–insert) require a layout in which the employee's label is neither cell of the pair and the day's label is not the start cell. A sheet that puts a name inside a day's column pair is not covered.
- Webhook.InvalidActionMessage: as written, the server fails at import (see above). The model uses the table's intended text instead.

=== FILE: base.dfy ===
/** Small wrappers shared by every module of the model. */
module Base {

  /** A value that may be absent: Python's `None` or a failed lookup. */
  datatype Option<T> = None | Some(value: T)
}

=== FILE: sheet.dfy ===
/**
 * The worksheet the shift service works against: a fixed-size grid of string
 * cells addressed 1-based by (row, column), as a spreadsheet is. Only the
 * operations the service uses are modelled: find a cell by pattern, read a
 * cell, read a column, write a cell.
 */
module Sheet {
  import opened Base
  import opened Text

  /** A 1-based cell address. */
  datatype Cell = Cell(row: nat, col: nat)

  /** `a` comes strictly before `b` when the grid is read row by row, left to right. */
  predicate Before(a: Cell, b: Cell) {
    a.row < b.row || (a.row == b.row && a.col < b.col)
  }

  /** A label matches a pattern when it contains it, ignoring case. */
  predicate Matches(value: string, pattern: string) {
    ContainsIgnoreCase(value, pattern)
  }

  /** An empty cell matches a pattern only when the pattern matches every cell. */
  lemma EmptyMatches(pattern: string, value: string)
    requires Matches("", pattern)
    ensures Matches(value, pattern)
  {
    ContainsEmpty(Lower(value), Lower(pattern));
    assert Lower("") == "";
  }

  /**
   * The contents of a worksheet at one moment: its dimensions and the cells that
   * hold something. A cell absent from `cells` reads as the empty string.
   */
  datatype Grid = Grid(rows: nat, cols: nat, cells: map<Cell, string>) {

    predicate InGrid(c: Cell) {
      1 <= c.row <= rows && 1 <= c.col <= cols
    }

    function Value(c: Cell): string {
      if c in cells then cells[c] else ""
    }

    /** The grid after one cell write. */
    function Write(c: Cell, v: string): (g: Grid)
      ensures g.rows == rows && g.cols == cols
      ensures g.Value(c) == v
      ensures forall d :: d != c ==> g.Value(d) == Value(d)
    {
      this.(cells := cells[c := v])
    }

    /** Same dimensions and every cell reads the same (a cell absent from the map reads as ""). */
    ghost predicate SameContents(h: Grid) {
      rows == h.rows && cols == h.cols && forall c :: Value(c) == h.Value(c)
    }

    /**
     * The first cell, reading row by row from (row, col) on, whose value
     * matches `pattern`.
     */
    function FindFrom(pattern: string, row: nat, col: nat): (r: Option<Cell>)
      requires 1 <= row && 1 <= col <= cols + 1
      ensures r.Some? ==> InGrid(r.value) && !Before(r.value, Cell(row, col))
      ensures r.Some? ==> Matches(Value(r.value), pattern)
      ensures r.Some? ==> forall c :: InGrid(c) && !Before(c, Cell(row, col)) && Before(c, r.value) ==>
                                      !Matches(Value(c), pattern)
      ensures r.None? ==> forall c :: InGrid(c) && !Before(c, Cell(row, col)) ==> !Matches(Value(c), pattern)
      decreases rows + 1 - row, cols + 1 - col
    {
      if row > rows then None
      else if col > cols then FindFrom(pattern, row + 1, 1)
      else if Matches(Value(Cell(row, col)), pattern) then Some(Cell(row, col))
      else FindFrom(pattern, row, col + 1)
    }

    /**
     * The worksheet's `find`: the first matching cell in row-major order, or
     * nothing when no cell of the grid matches.
     */
    function Find(pattern: string): (r: Option<Cell>)
      ensures r.Some? ==> InGrid(r.value) && Matches(Value(r.value), pattern)
      ensures r.Some? ==> forall c :: InGrid(c) && Before(c, r.value) ==> !Matches(Value(c), pattern)
      ensures r.None? <==> forall c :: InGrid(c) ==> !Matches(Value(c), pattern)
    {
      FindFrom(pattern, 1, 1)
    }

    /** Column `col` top to bottom, one entry per row of the grid. */
    function Column(col: nat): (vs: seq<string>)
      ensures |vs| == rows
      ensures forall i :: 0 <= i < rows ==> vs[i] == Value(Cell(i + 1, col))
    {
      seq(rows, i requires 0 <= i < rows => Value(Cell(i + 1, col)))
    }

    /**
     * The worksheet's `col_values`: the column's values from the top, down to
     * its last non-empty cell; every cell below that is empty.
     */
    function ColValues(col: nat): (vs: seq<string>)
      ensures |vs| <= rows
      ensures forall i :: 0 <= i < |vs| ==> vs[i] == Value(Cell(i + 1, col))
      ensures forall row :: |vs| < row <= rows ==> Value(Cell(row, col)) == ""
      ensures vs != [] ==> vs[|vs| - 1] != ""
    {
      var column := Column(col);
      var trimmed := TrimTrailingEmpty(column);
      assert forall row :: |trimmed| < row <= rows ==> column[row - 1] == Value(Cell(row, col));
      trimmed
    }
  }

  /** Drop the empty strings at the end of a list of cell values. */
  function TrimTrailingEmpty(vs: seq<string>): (r: seq<string>)
    ensures |r| <= |vs| && r == vs[..|r|]
    ensures r != [] ==> r[|r| - 1] != ""
    ensures forall i :: |r| <= i < |vs| ==> vs[i] == ""
    decreases |vs|
  {
    if vs != [] && vs[|vs| - 1] == "" then TrimTrailingEmpty(vs[..|vs| - 1]) else vs
  }

  /**
   * A search whose first match still matches after the grid changed, and before
   * which no cell has newly come to match, finds the same cell.
   */
  lemma FindStable(g: Grid, h: Grid, pattern: string)
    requires h.rows == g.rows && h.cols == g.cols
    requires g.Find(pattern).Some?
    requires Matches(h.Value(g.Find(pattern).value), pattern)
    requires forall c :: g.InGrid(c) && Before(c, g.Find(pattern).value) && Matches(h.Value(c), pattern) ==>
                         Matches(g.Value(c), pattern)
    ensures h.Find(pattern) == g.Find(pattern)
  {
    var x := g.Find(pattern).value;
    assert h.InGrid(x);
    var y := h.Find(pattern).value;
    if Before(y, x) {
      assert false;
    }
    if Before(x, y) {
      assert false;
    }
    assert y == x;
  }

  /**
   * A search whose first match still matches after a change confined to that
   * match's row and the rows below it finds a cell in the same row.
   */
  lemma FindRowStable(g: Grid, h: Grid, pattern: string)
    requires h.rows == g.rows && h.cols == g.cols
    requires g.Find(pattern).Some?
    requires Matches(h.Value(g.Find(pattern).value), pattern)
    requires forall c :: g.InGrid(c) && c.row < g.Find(pattern).value.row ==> h.Value(c) == g.Value(c)
    ensures h.Find(pattern).Some? && h.Find(pattern).value.row == g.Find(pattern).value.row
  {
    var x := g.Find(pattern).value;
    assert h.InGrid(x);
    var y := h.Find(pattern).value;
    if y.row < x.row {
      assert Before(y, x) && Matches(g.Value(y), pattern);
      assert false;
    }
    if y.row > x.row {
      assert Before(x, y);
      assert false;
    }
  }

  /** Writing one cell changes its column at that row and no other column. */
  lemma WriteColumn(g: Grid, x: Cell, v: string, col: nat)
    requires g.InGrid(x)
    ensures g.Write(x, v).Column(col) == if col == x.col then g.Column(col)[x.row - 1 := v] else g.Column(col)
  {
    var after := g.Write(x, v).Column(col);
    var expected := if col == x.col then g.Column(col)[x.row - 1 := v] else g.Column(col);
    assert |after| == |expected|;
    forall i | 0 <= i < |after| ensures after[i] == expected[i] {
    }
  }

  /**
   * The mutable worksheet. Its dimensions are fixed; a write outside them is
   * refused, as the spreadsheet service refuses a range beyond the grid.
   */
  class Worksheet {
    const rows: nat
    const cols: nat
    var cells: map<Cell, string>

    constructor (rows: nat, cols: nat, cells: map<Cell, string>)
      ensures View() == Grid(rows, cols, cells)
    {
      this.rows := rows;
      this.cols := cols;
      this.cells := cells;
    }

    /** The current contents. */
    function View(): Grid
      reads this
    {
      Grid(rows, cols, cells)
    }

    /** The worksheet's `update_cell`; `ok` is false where the service raises an error. */
    method UpdateCell(row: nat, col: nat, value: string) returns (ok: bool)
      modifies this
      ensures ok == old(View()).InGrid(Cell(row, col))
      ensures View() == if ok then old(View()).Write(Cell(row, col), value) else old(View())
    {
      ok := 1 <= row <= rows && 1 <= col <= cols;
      if ok {
        cells := cells[Cell(row, col) := value];
      }
    }
  }
}

=== FILE: shift_service.dfy ===
/**
 * The shift record store: one worksheet row per employee, a (start, end) pair
 * of columns per weekday, two header rows. Booking a shift writes the two cells
 * of the pair after a fixed sequence of checks; deleting clears them; reading
 * returns them.
 *
 * Each operation is specified twice over: as a function of the worksheet's
 * contents (InsertStep, DeleteStep, ReadShift), about which the properties are
 * proved, and as a method that performs the same checks and cell writes (or
 * reads) on a Worksheet object and is proved to agree with that function.
 */
module ShiftService {
  import opened Base
  import opened Text
  import opened Sheet
  import opened Validator

  /** The result codes the service returns. */
  datatype Code =
    | ErrorInvalidName
    | ErrorInvalidTime
    | ErrorEntryExists
    | ErrorDayLimitReached
    | UpdateSuccess
    | DeleteSuccess

  /** A call either returns a value or raises an exception that escapes it. */
  datatype Outcome<T> = Returned(value: T) | Raised

  /** What a store operation returns, and the worksheet contents it leaves behind. */
  datatype Step = Step(outcome: Outcome<Code>, after: Grid)

  /** A booked shift as `read_shift` reports it. */
  datatype ShiftRecord = ShiftRecord(name: string, day: string, startTime: string, endTime: string)

  /** What `read_shift` returns: an error code, nothing (`None`), or the record. */
  datatype ReadReply = ReadError(code: Code) | NoShift | Shift(record: ShiftRecord)

  /** At most this many employees may be booked on one day. */
  const DayLimit := 3

  /** Rows above the employee rows, skipped when bookings are counted. */
  const HeaderRows := 2

  // ---------------------------------------------------------------------------
  // Checks against the worksheet

  /** `_is_valid_employee`: the search for the name finds a cell, so some cell of the worksheet matches it. */
  predicate IsValidEmployee(g: Grid, name: string): (b: bool)
    ensures b <==> exists c :: g.InGrid(c) && Matches(g.Value(c), name)
  {
    g.Find(name).Some?
  }

  /**
   * The start-time cell a request addresses: the row of the first cell matching
   * the name, the column of the first cell matching the day.
   */
  function Slot(g: Grid, name: string, day: string): (r: Option<Cell>)
    ensures r.Some? <==> g.Find(name).Some? && g.Find(day).Some?
    ensures r.Some? ==> g.InGrid(r.value)
    ensures r.Some? ==> r.value.row == g.Find(name).value.row && r.value.col == g.Find(day).value.col
  {
    if g.Find(name).Some? && g.Find(day).Some? then
      Some(Cell(g.Find(name).value.row, g.Find(day).value.col))
    else None
  }

  /** The end-time cell, right of the start-time cell. */
  function EndOf(start: Cell): Cell {
    Cell(start.row, start.col + 1)
  }

  /**
   * `_entry_exists`: the cell holds a non-empty string. A cell without an
   * entry holds no booking either.
   */
  predicate EntryExists(g: Grid, c: Cell): (b: bool)
    ensures !b ==> !IsBooked(g.Value(c))
  {
    g.Value(c) != ""
  }

  /** A value counts as a booking when something other than whitespace is in it. */
  predicate IsBooked(v: string) {
    exists i :: 0 <= i < |v| && !IsSpace(v[i])
  }

  /** That is exactly when `v.strip()` is non-empty, the test the day limit applies. */
  lemma BookedIffStripped(v: string)
    ensures IsBooked(v) <==> Strip(v) != ""
  {
    StripEmptyIff(v);
  }

  function BookedCount(v: string): nat {
    if IsBooked(v) then 1 else 0
  }

  /** How many of the values are bookings. */
  function FilledCount(vs: seq<string>): (n: nat)
    ensures n <= |vs|
    decreases |vs|
  {
    if vs == [] then 0 else FilledCount(vs[..|vs| - 1]) + BookedCount(vs[|vs| - 1])
  }

  /** Python's `vs[n:]`: empty when the list is too short. */
  function Drop(vs: seq<string>, n: nat): (r: seq<string>)
    ensures |r| == if |vs| <= n then 0 else |vs| - n
    ensures forall i :: 0 <= i < |r| ==> r[i] == vs[n + i]
  {
    if |vs| <= n then [] else vs[n..]
  }

  /**
   * `_day_limit_reached`: the booked values of `col_values` below the header
   * rows reach the limit. Trimming the trailing empty cells loses none, so
   * this is the column's count of bookings reaching the limit.
   */
  predicate DayLimitReached(g: Grid, col: nat): (b: bool)
    ensures b <==> Bookings(g, col) >= DayLimit
  {
    TrimKeepsCount(g.Column(col), HeaderRows);
    FilledCount(Drop(g.ColValues(col), HeaderRows)) >= DayLimit
  }

  /** The bookings held in a column: its booked cells below the header rows. */
  function Bookings(g: Grid, col: nat): nat {
    FilledCount(Drop(g.Column(col), HeaderRows))
  }

  // ---------------------------------------------------------------------------
  // The operations, as functions of the worksheet's contents

  /**
   * `_insert_shift`: the name must be found, then the day must be a weekday
   * name and the times valid, then the pair is placed (PlaceShift).
   */
  function InsertStep(g: Grid, name: string, day: string, startTime: string, endTime: string): (r: Step)
    ensures r.outcome.Returned? ==> r.outcome.value != DeleteSuccess
    ensures r.outcome.Returned? && r.outcome.value != UpdateSuccess ==> r.after == g
    ensures r.after.rows == g.rows && r.after.cols == g.cols
  {
    if !IsValidEmployee(g, name) then Step(Returned(ErrorInvalidName), g)
    else if !IsValidDay(day) then Step(Returned(ErrorInvalidTime), g)
    else match IsValidTime(startTime, endTime)
      case None => Step(Raised, g)
      case Some(valid) =>
        if !valid then Step(Returned(ErrorInvalidTime), g)
        else match Slot(g, name, day)
          case None => Step(Raised, g)
          case Some(start) => PlaceShift(g, start, startTime, endTime)
  }

  /**
   * The second half of `_insert_shift`: the start cell must be empty and the
   * day under its limit; then the start cell is written, then the end cell.
   */
  function PlaceShift(g: Grid, start: Cell, startTime: string, endTime: string): (r: Step)
    ensures r.outcome.Returned? ==> r.outcome.value in {ErrorEntryExists, ErrorDayLimitReached, UpdateSuccess}
    ensures r.outcome.Returned? && r.outcome.value != UpdateSuccess ==> r.after == g
    ensures r.after.rows == g.rows && r.after.cols == g.cols
  {
    if EntryExists(g, start) then Step(Returned(ErrorEntryExists), g)
    else if DayLimitReached(g, start.col) then Step(Returned(ErrorDayLimitReached), g)
    else if !g.InGrid(EndOf(start)) then Step(Raised, g.Write(start, startTime))
    else Step(Returned(UpdateSuccess), g.Write(start, startTime).Write(EndOf(start), endTime))
  }

  /** `delete_shift`: with the name found, clear the start and end cells, whatever they hold. */
  function DeleteStep(g: Grid, name: string, day: string): (r: Step)
    ensures r.outcome.Returned? ==> r.outcome.value in {ErrorInvalidName, DeleteSuccess}
    ensures r.outcome.Returned? && r.outcome.value != DeleteSuccess ==> r.after == g
    ensures r.after.rows == g.rows && r.after.cols == g.cols
  {
    if !IsValidEmployee(g, name) then Step(Returned(ErrorInvalidName), g)
    else match Slot(g, name, day)
      case None => Step(Raised, g)
      case Some(start) =>
        if !g.InGrid(EndOf(start)) then Step(Raised, g.Write(start, ""))
        else Step(Returned(DeleteSuccess), g.Write(start, "").Write(EndOf(start), ""))
  }

  /**
   * `read_shift`: with the name found and the day a weekday name, the record
   * held in the cell pair, or nothing when the start cell is empty. Reading
   * is a function of the contents: it changes nothing.
   */
  function ReadShift(g: Grid, name: string, day: string): (r: Outcome<ReadReply>)
    ensures r.Returned? && r.value.Shift? ==> r.value.record.name == name && r.value.record.day == day
    ensures r.Returned? && r.value.Shift? ==>
      Slot(g, name, day).Some?
      && r.value.record.startTime == g.Value(Slot(g, name, day).value) != ""
      && r.value.record.endTime == g.Value(EndOf(Slot(g, name, day).value))
    ensures r == Returned(NoShift) <==>
      IsValidEmployee(g, name) && IsValidDay(day) && Slot(g, name, day).Some? && !EntryExists(g, Slot(g, name, day).value)
  {
    if !IsValidEmployee(g, name) then Returned(ReadError(ErrorInvalidName))
    else if !IsValidDay(day) then Returned(ReadError(ErrorInvalidTime))
    else match Slot(g, name, day)
      case None => Raised
      case Some(start) =>
        if !EntryExists(g, start) then Returned(NoShift)
        else if !g.InGrid(EndOf(start)) then Raised
        else Returned(Shift(ShiftRecord(name, day, g.Value(start), g.Value(EndOf(start)))))
  }

  // ---------------------------------------------------------------------------
  // The operations on the worksheet object

  /** `_insert_shift` on the shared worksheet: checks, then two cell writes. */
  method InsertShift(ws: Worksheet, name: string, day: string, startTime: string, endTime: string)
    returns (outcome: Outcome<Code>)
    modifies ws
    ensures Step(outcome, ws.View()) == InsertStep(old(ws.View()), name, day, startTime, endTime)
  {
    if !IsValidEmployee(ws.View(), name) {
      return Returned(ErrorInvalidName);
    }
    if !IsValidDay(day) {
      return Returned(ErrorInvalidTime);
    }
    var valid := IsValidTime(startTime, endTime);
    if valid.None? {
      return Raised;
    }
    if !valid.value {
      return Returned(ErrorInvalidTime);
    }
    var nameCell := ws.View().Find(name);
    var dayCell := ws.View().Find(day);
    if dayCell.None? {
      return Raised;
    }
    var row, col := nameCell.value.row, dayCell.value.col;
    assert Slot(ws.View(), name, day) == Some(Cell(row, col));
    outcome := Place(ws, Cell(row, col), startTime, endTime);
  }

  /** The cell writes of `_insert_shift`, after its checks on the times. */
  method Place(ws: Worksheet, start: Cell, startTime: string, endTime: string) returns (outcome: Outcome<Code>)
    requires ws.View().InGrid(start)
    modifies ws
    ensures Step(outcome, ws.View()) == PlaceShift(old(ws.View()), start, startTime, endTime)
  {
    if EntryExists(ws.View(), start) {
      return Returned(ErrorEntryExists);
    }
    if DayLimitReached(ws.View(), start.col) {
      return Returned(ErrorDayLimitReached);
    }
    var written := ws.UpdateCell(start.row, start.col, startTime);
    written := ws.UpdateCell(start.row, start.col + 1, endTime);
    if !written {
      return Raised;
    }
    return Returned(UpdateSuccess);
  }

  /** `delete_shift` on the shared worksheet: no day check, two cell writes. */
  method DeleteShift(ws: Worksheet, name: string, day: string) returns (outcome: Outcome<Code>)
    modifies ws
    ensures Step(outcome, ws.View()) == DeleteStep(old(ws.View()), name, day)
  {
    if !IsValidEmployee(ws.View(), name) {
      return Returned(ErrorInvalidName);
    }
    var nameCell := ws.View().Find(name);
    var dayCell := ws.View().Find(day);
    if dayCell.None? {
      return Raised;
    }
    var row, col := nameCell.value.row, dayCell.value.col;
    var written := ws.UpdateCell(row, col, "");
    written := ws.UpdateCell(row, col + 1, "");
    if !written {
      return Raised;
    }
    return Returned(DeleteSuccess);
  }

  /** `read_shift` on the shared worksheet: checks, then two cell reads; the worksheet is left as it was. */
  method ReadShiftFrom(ws: Worksheet, name: string, day: string) returns (r: Outcome<ReadReply>)
    ensures r == ReadShift(ws.View(), name, day)
  {
    if !IsValidEmployee(ws.View(), name) {
      return Returned(ReadError(ErrorInvalidName));
    }
    if !IsValidDay(day) {
      return Returned(ReadError(ErrorInvalidTime));
    }
    var nameCell := ws.View().Find(name);
    var dayCell := ws.View().Find(day);
    if dayCell.None? {
      return Raised;
    }
    var start := Cell(nameCell.value.row, dayCell.value.col);
    if !EntryExists(ws.View(), start) {
      return Returned(NoShift);
    }
    if !ws.View().InGrid(EndOf(start)) {
      return Raised;
    }
    var startTime := ws.View().Value(start);
    var endTime := ws.View().Value(EndOf(start));
    return Returned(Shift(ShiftRecord(name, day, startTime, endTime)));
  }

  // ---------------------------------------------------------------------------
  // Counting bookings

  /** Trailing empty values add no bookings: trimming them does not change the count. */
  lemma {:induction false} TrimKeepsCount(vs: seq<string>, k: nat)
    ensures FilledCount(Drop(TrimTrailingEmpty(vs), k)) == FilledCount(Drop(vs, k))
    decreases |vs|
  {
    if vs != [] && vs[|vs| - 1] == "" {
      var front := vs[..|vs| - 1];
      TrimKeepsCount(front, k);
      if |vs| > k {
        var d := Drop(vs, k);
        assert d[..|d| - 1] == Drop(front, k);
      }
    }
  }

  /** Replacing one value changes the count by what the old and new values contribute. */
  lemma {:induction false} UpdateCount(vs: seq<string>, i: nat, v: string)
    requires i < |vs|
    ensures FilledCount(vs[i := v]) == FilledCount(vs) - BookedCount(vs[i]) + BookedCount(v)
    decreases |vs|
  {
    var n := |vs|;
    var ws := vs[i := v];
    assert FilledCount(ws) == FilledCount(ws[..n - 1]) + BookedCount(ws[n - 1]);
    assert FilledCount(vs) == FilledCount(vs[..n - 1]) + BookedCount(vs[n - 1]);
    if i == n - 1 {
      assert ws[..n - 1] == vs[..n - 1];
    } else {
      assert ws[..n - 1] == vs[..n - 1][i := v];
      UpdateCount(vs[..n - 1], i, v);
    }
  }

  lemma DropUpdate(vs: seq<string>, k: nat, i: nat, v: string)
    requires i < |vs|
    ensures Drop(vs[i := v], k) == if i < k then Drop(vs, k) else Drop(vs, k)[i - k := v]
  {
  }

  /** Writing one cell changes the bookings of its own column, below the header rows, by at most one. */
  lemma WriteBookings(g: Grid, x: Cell, v: string, col: nat)
    requires g.InGrid(x)
    ensures Bookings(g.Write(x, v), col) ==
            if col == x.col && x.row > HeaderRows then Bookings(g, col) - BookedCount(g.Value(x)) + BookedCount(v)
            else Bookings(g, col)
  {
    WriteColumn(g, x, v, col);
    var before := Drop(g.Column(col), HeaderRows);
    var after := Drop(g.Write(x, v).Column(col), HeaderRows);
    assert Bookings(g, col) == FilledCount(before);
    assert Bookings(g.Write(x, v), col) == FilledCount(after);
    if col == x.col {
      DropUpdate(g.Column(col), HeaderRows, x.row - 1, v);
      if x.row > HeaderRows {
        var i := x.row - 1 - HeaderRows;
        assert after == before[i := v];
        assert before[i] == g.Value(x);
        UpdateCount(before, i, v);
      } else {
        assert after == before;
      }
    } else {
      assert after == before;
    }
  }
}

=== FILE: store_properties.dfy ===
/**
 * Properties of the shift store, proved on the functions that specify its
 * operations: what makes each operation succeed, which cells it changes, how
 * it keeps the day limit, and how the operations compose (a booking reads
 * back; a second booking of the same slot is refused; deletion clears,
 * is idempotent and makes room for the same booking again).
 */
module StoreProperties {
  import opened Base
  import opened Text
  import opened Sheet
  import opened Validator
  import opened ShiftService

  /**
   * The layout under which a request's own cell pair never overwrites the
   * labels that locate it: the employee's label is neither cell of the pair
   * and the day's label is not the start cell. A sheet whose names sit in the
   * first column and whose weekday names sit in a header row has this shape.
   */
  ghost predicate LabelsOutsidePair(g: Grid, name: string, day: string) {
    Slot(g, name, day).Some? ==>
      var start := Slot(g, name, day).value;
      g.Find(name).value != start && g.Find(name).value != EndOf(start) && g.Find(day).value != start
  }

  // ---------------------------------------------------------------------------
  // Insertion

  /** A booking succeeds exactly when every check passes and the pair lies inside the sheet. */
  lemma InsertSucceedsIff(g: Grid, name: string, day: string, startTime: string, endTime: string)
    ensures InsertStep(g, name, day, startTime, endTime).outcome == Returned(UpdateSuccess) <==>
      IsValidEmployee(g, name) && IsValidDay(day) && IsValidTime(startTime, endTime) == Some(true)
      && Slot(g, name, day).Some?
      && !EntryExists(g, Slot(g, name, day).value)
      && Bookings(g, Slot(g, name, day).value.col) < DayLimit
      && g.InGrid(EndOf(Slot(g, name, day).value))
  {
  }

  /** With the name, the day and the times accepted and the pair found, a booking is the placement of the pair. */
  lemma InsertReachesPlace(g: Grid, name: string, day: string, startTime: string, endTime: string)
    requires IsValidEmployee(g, name) && IsValidDay(day) && IsValidTime(startTime, endTime) == Some(true)
    requires Slot(g, name, day).Some?
    ensures InsertStep(g, name, day, startTime, endTime) == PlaceShift(g, Slot(g, name, day).value, startTime, endTime)
  {
  }

  /**
   * Placing a pair checks the start cell, then the day's limit, then writes:
   * each outcome is reported exactly when the checks before it pass.
   */
  lemma PlaceCodes(g: Grid, start: Cell, startTime: string, endTime: string)
    ensures PlaceShift(g, start, startTime, endTime).outcome == Returned(ErrorEntryExists) <==> EntryExists(g, start)
    ensures PlaceShift(g, start, startTime, endTime).outcome == Returned(ErrorDayLimitReached) <==>
      !EntryExists(g, start) && DayLimitReached(g, start.col)
    ensures PlaceShift(g, start, startTime, endTime).outcome == Returned(UpdateSuccess) <==>
      !EntryExists(g, start) && !DayLimitReached(g, start.col) && g.InGrid(EndOf(start))
    ensures PlaceShift(g, start, startTime, endTime).outcome.Returned? ==>
      PlaceShift(g, start, startTime, endTime).outcome.value in {ErrorEntryExists, ErrorDayLimitReached, UpdateSuccess}
  {
  }

  /** The input errors: the name is checked first, then the day and the times. */
  lemma InsertInputErrorsIff(g: Grid, name: string, day: string, startTime: string, endTime: string)
    ensures InsertStep(g, name, day, startTime, endTime).outcome == Returned(ErrorInvalidName) <==>
      !IsValidEmployee(g, name)
    ensures InsertStep(g, name, day, startTime, endTime).outcome == Returned(ErrorInvalidTime) <==>
      IsValidEmployee(g, name) && (!IsValidDay(day) || IsValidTime(startTime, endTime) == Some(false))
  {
    if !IsValidEmployee(g, name) || !IsValidDay(day) || IsValidTime(startTime, endTime) != Some(true) {
    } else if Slot(g, name, day).None? {
    } else {
      InsertReachesPlace(g, name, day, startTime, endTime);
      PlaceCodes(g, Slot(g, name, day).value, startTime, endTime);
    }
  }

  /**
   * The slot errors, reported only once the inputs are accepted: a filled
   * start cell first, then a day at its limit.
   */
  lemma InsertSlotErrorsIff(g: Grid, name: string, day: string, startTime: string, endTime: string)
    ensures InsertStep(g, name, day, startTime, endTime).outcome == Returned(ErrorEntryExists) <==>
      IsValidEmployee(g, name) && IsValidDay(day) && IsValidTime(startTime, endTime) == Some(true)
      && Slot(g, name, day).Some? && EntryExists(g, Slot(g, name, day).value)
    ensures InsertStep(g, name, day, startTime, endTime).outcome == Returned(ErrorDayLimitReached) <==>
      IsValidEmployee(g, name) && IsValidDay(day) && IsValidTime(startTime, endTime) == Some(true)
      && Slot(g, name, day).Some? && !EntryExists(g, Slot(g, name, day).value)
      && Bookings(g, Slot(g, name, day).value.col) >= DayLimit
  {
    if !IsValidEmployee(g, name) || !IsValidDay(day) || IsValidTime(startTime, endTime) != Some(true) {
    } else if Slot(g, name, day).None? {
    } else {
      InsertReachesPlace(g, name, day, startTime, endTime);
      PlaceCodes(g, Slot(g, name, day).value, startTime, endTime);
    }
  }

  /** A successful booking passed every check and wrote the start cell, then the end cell. */
  lemma InsertSuccessShape(g: Grid, name: string, day: string, startTime: string, endTime: string)
    requires InsertStep(g, name, day, startTime, endTime).outcome == Returned(UpdateSuccess)
    ensures IsValidDay(day) && IsValidTime(startTime, endTime) == Some(true) && Slot(g, name, day).Some?
    ensures var start := Slot(g, name, day).value;
            !EntryExists(g, start) && g.InGrid(EndOf(start)) && Bookings(g, start.col) < DayLimit
            && InsertStep(g, name, day, startTime, endTime).after
               == g.Write(start, startTime).Write(EndOf(start), endTime)
  {
    InsertSucceedsIff(g, name, day, startTime, endTime);
    var start := Slot(g, name, day).value;
    assert InsertStep(g, name, day, startTime, endTime) == PlaceShift(g, start, startTime, endTime);
  }

  /** A successful booking writes the start and end times into the pair and nothing else. */
  lemma InsertWritesPair(g: Grid, name: string, day: string, startTime: string, endTime: string)
    requires InsertStep(g, name, day, startTime, endTime).outcome == Returned(UpdateSuccess)
    ensures Slot(g, name, day).Some?
    ensures var start := Slot(g, name, day).value;
            var h := InsertStep(g, name, day, startTime, endTime).after;
            h.Value(start) == startTime && h.Value(EndOf(start)) == endTime
            && forall c :: c != start && c != EndOf(start) ==> h.Value(c) == g.Value(c)
  {
    InsertSuccessShape(g, name, day, startTime, endTime);
  }

  /**
   * A booking raises exactly when a time does not parse as an hour, or the day
   * label is missing, or the end cell falls outside the sheet; in the last case
   * the start time has already been written.
   */
  lemma InsertRaisesIff(g: Grid, name: string, day: string, startTime: string, endTime: string)
    ensures InsertStep(g, name, day, startTime, endTime).outcome == Raised <==>
      IsValidEmployee(g, name) && IsValidDay(day) &&
      (IsValidTime(startTime, endTime).None? ||
       (IsValidTime(startTime, endTime) == Some(true) &&
        (Slot(g, name, day).None? ||
         (!EntryExists(g, Slot(g, name, day).value) && !DayLimitReached(g, Slot(g, name, day).value.col)
          && !g.InGrid(EndOf(Slot(g, name, day).value))))))
    ensures InsertStep(g, name, day, startTime, endTime).outcome == Raised ==>
      var h := InsertStep(g, name, day, startTime, endTime).after;
      h == g || (Slot(g, name, day).Some? && h.Value(Slot(g, name, day).value) == startTime
                 && forall c :: c != Slot(g, name, day).value ==> h.Value(c) == g.Value(c))
  {
  }

  /** A valid time is never blank, so a booked start cell counts toward the day's bookings. */
  lemma ValidTimeIsBooked(startTime: string, endTime: string)
    requires IsValidTime(startTime, endTime) == Some(true)
    ensures IsBooked(startTime) && IsBooked(endTime)
  {
    TimeIsFilled(startTime);
    TimeIsFilled(endTime);
    BookedIffStripped(startTime);
    BookedIffStripped(endTime);
  }

  /**
   * A successful booking adds one booking to its day (when its row is below the
   * header rows) and never takes the day past the limit; columns other than
   * the pair's keep their bookings.
   */
  lemma InsertRespectsDayLimit(g: Grid, name: string, day: string, startTime: string, endTime: string, col: nat)
    requires InsertStep(g, name, day, startTime, endTime).outcome == Returned(UpdateSuccess)
    ensures Slot(g, name, day).Some?
    ensures var start := Slot(g, name, day).value;
            var h := InsertStep(g, name, day, startTime, endTime).after;
            Bookings(h, start.col) == Bookings(g, start.col) + (if start.row > HeaderRows then 1 else 0)
            && Bookings(h, start.col) <= DayLimit
            && (col != start.col && col != start.col + 1 ==> Bookings(h, col) == Bookings(g, col))
  {
    InsertSuccessShape(g, name, day, startTime, endTime);
    var start := Slot(g, name, day).value;
    var g1 := g.Write(start, startTime);
    ValidTimeIsBooked(startTime, endTime);
    EmptyNotBooked();
    WriteBookings(g, start, startTime, start.col);
    WriteBookings(g1, EndOf(start), endTime, start.col);
    WriteBookings(g, start, startTime, col);
    WriteBookings(g1, EndOf(start), endTime, col);
  }

  /**
   * Whatever the outcome, a booking attempt keeps every day within the limit
   * and changes no other day's bookings. This includes the raise that leaves
   * the start time written when the end cell is off the sheet. The end
   * column of the pair, which receives end times, is not a day's column.
   */
  lemma InsertKeepsLimit(g: Grid, name: string, day: string, startTime: string, endTime: string, col: nat)
    requires Bookings(g, col) <= DayLimit
    requires Slot(g, name, day).Some? ==> col != Slot(g, name, day).value.col + 1
    ensures Bookings(InsertStep(g, name, day, startTime, endTime).after, col) <= DayLimit
    ensures Slot(g, name, day).None? || col != Slot(g, name, day).value.col ==>
      Bookings(InsertStep(g, name, day, startTime, endTime).after, col) == Bookings(g, col)
  {
    var r := InsertStep(g, name, day, startTime, endTime);
    if r.outcome == Returned(UpdateSuccess) {
      InsertRespectsDayLimit(g, name, day, startTime, endTime, col);
    } else if r.after != g {
      InsertRaisesIff(g, name, day, startTime, endTime);
      var start := Slot(g, name, day).value;
      InsertReachesPlace(g, name, day, startTime, endTime);
      PlaceCodes(g, start, startTime, endTime);
      assert r.after == g.Write(start, startTime);
      assert !EntryExists(g, start) && Bookings(g, start.col) < DayLimit;
      EmptyNotBooked();
      WriteBookings(g, start, startTime, col);
    }
  }

  lemma EmptyNotBooked()
    ensures !IsBooked("")
  {
  }

  // ---------------------------------------------------------------------------
  // Reading

  /**
   * Each outcome of a read, and exactly when it happens: the name is checked
   * first, then the day; a missing day label raises; an empty start cell reads
   * as no shift; a pair running off the sheet raises; otherwise the record.
   */
  lemma ReadOutcomesIff(g: Grid, name: string, day: string)
    ensures ReadShift(g, name, day) == Returned(ReadError(ErrorInvalidName)) <==> !IsValidEmployee(g, name)
    ensures ReadShift(g, name, day) == Returned(ReadError(ErrorInvalidTime)) <==> IsValidEmployee(g, name) && !IsValidDay(day)
    ensures ReadShift(g, name, day).Returned? && ReadShift(g, name, day).value.ReadError? ==>
      ReadShift(g, name, day).value.code in {ErrorInvalidName, ErrorInvalidTime}
    ensures ReadShift(g, name, day).Raised? <==>
      IsValidEmployee(g, name) && IsValidDay(day) &&
      (Slot(g, name, day).None? ||
       (EntryExists(g, Slot(g, name, day).value) && !g.InGrid(EndOf(Slot(g, name, day).value))))
    ensures (ReadShift(g, name, day).Returned? && ReadShift(g, name, day).value.Shift?) <==>
      IsValidEmployee(g, name) && IsValidDay(day) && Slot(g, name, day).Some?
      && EntryExists(g, Slot(g, name, day).value) && g.InGrid(EndOf(Slot(g, name, day).value))
  {
  }

  // ---------------------------------------------------------------------------
  // The pair's labels survive writes to the pair

  /**
   * Rewriting only the cells of the pair, with values that match the day
   * only where the old values did, leaves the pair where it was.
   */
  lemma SlotKept(g: Grid, h: Grid, name: string, day: string)
    requires Slot(g, name, day).Some? && LabelsOutsidePair(g, name, day)
    requires h.rows == g.rows && h.cols == g.cols
    requires var start := Slot(g, name, day).value;
             forall c :: c != start && c != EndOf(start) ==> h.Value(c) == g.Value(c)
    requires var start := Slot(g, name, day).value;
             (Matches(h.Value(start), day) ==> Matches(g.Value(start), day))
             && (Matches(h.Value(EndOf(start)), day) ==> Matches(g.Value(EndOf(start)), day))
    ensures Slot(h, name, day) == Slot(g, name, day)
  {
    var start := Slot(g, name, day).value;
    var n := g.Find(name).value;
    var d := g.Find(day).value;
    assert h.Value(n) == g.Value(n);
    assert h.Value(d) == g.Value(d);
    FindRowStable(g, h, name);
    FindStable(g, h, day);
  }

  /** After a successful booking the request still addresses the same pair. */
  lemma InsertKeepsSlot(g: Grid, name: string, day: string, startTime: string, endTime: string)
    requires InsertStep(g, name, day, startTime, endTime).outcome == Returned(UpdateSuccess)
    requires LabelsOutsidePair(g, name, day)
    ensures Slot(InsertStep(g, name, day, startTime, endTime).after, name, day) == Slot(g, name, day)
  {
    InsertSuccessShape(g, name, day, startTime, endTime);
    InsertWritesPair(g, name, day, startTime, endTime);
    TimeIsNotADay(startTime, day);
    TimeIsNotADay(endTime, day);
    SlotKept(g, InsertStep(g, name, day, startTime, endTime).after, name, day);
  }

  /** Clearing the pair leaves the request addressing the same pair. */
  lemma ClearKeepsSlot(g: Grid, h: Grid, name: string, day: string)
    requires Slot(g, name, day).Some? && LabelsOutsidePair(g, name, day)
    requires h.rows == g.rows && h.cols == g.cols
    requires var start := Slot(g, name, day).value;
             h.Value(start) == "" && h.Value(EndOf(start)) == ""
             && forall c :: c != start && c != EndOf(start) ==> h.Value(c) == g.Value(c)
    ensures Slot(h, name, day) == Slot(g, name, day)
  {
    var start := Slot(g, name, day).value;
    if Matches("", day) {
      EmptyMatches(day, g.Value(start));
      EmptyMatches(day, g.Value(EndOf(start)));
    }
    SlotKept(g, h, name, day);
  }

  // ---------------------------------------------------------------------------
  // Composition of insertion and reading

  /** What a successful booking wrote reads back as the shift's record. */
  lemma InsertThenRead(g: Grid, name: string, day: string, startTime: string, endTime: string)
    requires InsertStep(g, name, day, startTime, endTime).outcome == Returned(UpdateSuccess)
    requires LabelsOutsidePair(g, name, day)
    ensures ReadShift(InsertStep(g, name, day, startTime, endTime).after, name, day)
            == Returned(Shift(ShiftRecord(name, day, startTime, endTime)))
  {
    InsertSuccessShape(g, name, day, startTime, endTime);
    InsertWritesPair(g, name, day, startTime, endTime);
    InsertKeepsSlot(g, name, day, startTime, endTime);
    TimeIsFilled(startTime);
  }

  /** A request for a pair whose start cell is filled never writes, and with valid times reports the entry. */
  lemma InsertOnFilledSlot(g: Grid, name: string, day: string, startTime: string, endTime: string)
    requires Slot(g, name, day).Some? && EntryExists(g, Slot(g, name, day).value)
    ensures var r := InsertStep(g, name, day, startTime, endTime);
            r.after == g && r.outcome != Returned(UpdateSuccess)
            && (IsValidDay(day) && IsValidTime(startTime, endTime) == Some(true) ==> r.outcome == Returned(ErrorEntryExists))
  {
    var start := Slot(g, name, day).value;
    assert PlaceShift(g, start, startTime, endTime) == Step(Returned(ErrorEntryExists), g);
  }

  /** Once booked, the slot refuses a second booking (for any valid times) and stays as it is. */
  lemma InsertTwice(g: Grid, name: string, day: string, startTime: string, endTime: string,
                    startTime2: string, endTime2: string)
    requires InsertStep(g, name, day, startTime, endTime).outcome == Returned(UpdateSuccess)
    requires LabelsOutsidePair(g, name, day)
    ensures var h := InsertStep(g, name, day, startTime, endTime).after;
            var again := InsertStep(h, name, day, startTime2, endTime2);
            again.after == h && again.outcome != Returned(UpdateSuccess)
            && (IsValidTime(startTime2, endTime2) == Some(true) ==> again.outcome == Returned(ErrorEntryExists))
  {
    InsertSuccessShape(g, name, day, startTime, endTime);
    InsertWritesPair(g, name, day, startTime, endTime);
    InsertKeepsSlot(g, name, day, startTime, endTime);
    TimeIsFilled(startTime);
    InsertOnFilledSlot(InsertStep(g, name, day, startTime, endTime).after, name, day, startTime2, endTime2);
  }

  // ---------------------------------------------------------------------------
  // Deletion

  /** A deletion succeeds exactly when the name and the day are found and the pair lies inside the sheet. */
  lemma DeleteSucceedsIff(g: Grid, name: string, day: string)
    ensures DeleteStep(g, name, day).outcome == Returned(DeleteSuccess) <==>
      IsValidEmployee(g, name) && Slot(g, name, day).Some? && g.InGrid(EndOf(Slot(g, name, day).value))
    ensures DeleteStep(g, name, day).outcome == Raised <==>
      IsValidEmployee(g, name) && (Slot(g, name, day).None? || !g.InGrid(EndOf(Slot(g, name, day).value)))
  {
  }

  /** A successful deletion empties both cells of the pair and touches nothing else. */
  lemma DeleteClears(g: Grid, name: string, day: string)
    requires DeleteStep(g, name, day).outcome == Returned(DeleteSuccess)
    ensures Slot(g, name, day).Some?
    ensures var start := Slot(g, name, day).value;
            var h := DeleteStep(g, name, day).after;
            h.Value(start) == "" && h.Value(EndOf(start)) == ""
            && forall c :: c != start && c != EndOf(start) ==> h.Value(c) == g.Value(c)
  {
  }

  /** Deleting, whatever its outcome, never adds a booking to any day. */
  lemma DeleteNeverAddsBookings(g: Grid, name: string, day: string, col: nat)
    ensures Bookings(DeleteStep(g, name, day).after, col) <= Bookings(g, col)
  {
    if IsValidEmployee(g, name) && Slot(g, name, day).Some? {
      var start := Slot(g, name, day).value;
      EmptyNotBooked();
      WriteBookings(g, start, "", col);
      if g.InGrid(EndOf(start)) {
        WriteBookings(g.Write(start, ""), EndOf(start), "", col);
      }
    }
  }

  /** After a deletion the slot reads as having no shift (the read still checks the day). */
  lemma DeleteThenRead(g: Grid, name: string, day: string)
    requires DeleteStep(g, name, day).outcome == Returned(DeleteSuccess)
    requires LabelsOutsidePair(g, name, day)
    ensures ReadShift(DeleteStep(g, name, day).after, name, day)
            == if IsValidDay(day) then Returned(NoShift) else Returned(ReadError(ErrorInvalidTime))
  {
    DeleteClears(g, name, day);
    ClearKeepsSlot(g, DeleteStep(g, name, day).after, name, day);
  }

  /** Deleting twice succeeds twice and leaves the same contents as deleting once. */
  lemma DeleteIdempotent(g: Grid, name: string, day: string)
    requires DeleteStep(g, name, day).outcome == Returned(DeleteSuccess)
    requires LabelsOutsidePair(g, name, day)
    ensures var h := DeleteStep(g, name, day).after;
            DeleteStep(h, name, day).outcome == Returned(DeleteSuccess)
            && DeleteStep(h, name, day).after.SameContents(h)
  {
    var h := DeleteStep(g, name, day).after;
    DeleteClears(g, name, day);
    ClearKeepsSlot(g, h, name, day);
    DeleteClears(h, name, day);
  }

  /** A successful deletion found the pair inside the sheet and wrote "" into its start cell, then its end cell. */
  lemma DeleteSuccessShape(g: Grid, name: string, day: string)
    requires DeleteStep(g, name, day).outcome == Returned(DeleteSuccess)
    ensures Slot(g, name, day).Some? && g.InGrid(EndOf(Slot(g, name, day).value))
    ensures var start := Slot(g, name, day).value;
            DeleteStep(g, name, day).after == g.Write(start, "").Write(EndOf(start), "")
  {
  }

  /**
   * Deleting a shift just booked succeeds, and leaves the pair where it was,
   * its start cell empty and its day with the bookings it had before.
   */
  lemma InsertThenDelete(g: Grid, name: string, day: string, startTime: string, endTime: string)
    requires InsertStep(g, name, day, startTime, endTime).outcome == Returned(UpdateSuccess)
    requires LabelsOutsidePair(g, name, day)
    ensures Slot(g, name, day).Some?
    ensures var start := Slot(g, name, day).value;
            var h1 := InsertStep(g, name, day, startTime, endTime).after;
            var h2 := DeleteStep(h1, name, day).after;
            DeleteStep(h1, name, day).outcome == Returned(DeleteSuccess)
            && Slot(h2, name, day) == Slot(g, name, day)
            && h2.rows == g.rows && h2.cols == g.cols
            && h2.Value(start) == "" && h2.Value(EndOf(start)) == ""
            && (forall c :: c != start && c != EndOf(start) ==> h2.Value(c) == g.Value(c))
            && Bookings(h2, start.col) == Bookings(g, start.col)
  {
    var start := Slot(g, name, day).value;
    var h1 := InsertStep(g, name, day, startTime, endTime).after;
    InsertSuccessShape(g, name, day, startTime, endTime);
    InsertKeepsSlot(g, name, day, startTime, endTime);
    var h2 := DeleteStep(h1, name, day).after;
    DeleteSuccessShape(h1, name, day);
    ClearKeepsSlot(g, h2, name, day);
    RestoredBookings(g, h1, h2, start, startTime, endTime);
  }

  /**
   * Booking, deleting and booking the same shift again succeeds each time, and
   * the sheet ends as the first booking left it.
   */
  lemma InsertDeleteInsert(g: Grid, name: string, day: string, startTime: string, endTime: string)
    requires InsertStep(g, name, day, startTime, endTime).outcome == Returned(UpdateSuccess)
    requires LabelsOutsidePair(g, name, day)
    ensures var h1 := InsertStep(g, name, day, startTime, endTime).after;
            var h2 := DeleteStep(h1, name, day).after;
            DeleteStep(h1, name, day).outcome == Returned(DeleteSuccess)
            && InsertStep(h2, name, day, startTime, endTime).outcome == Returned(UpdateSuccess)
            && InsertStep(h2, name, day, startTime, endTime).after.SameContents(h1)
  {
    InsertThenDelete(g, name, day, startTime, endTime);
    var h2 := DeleteStep(InsertStep(g, name, day, startTime, endTime).after, name, day).after;
    InsertIntoClearedPair(g, h2, name, day, startTime, endTime);
  }

  /**
   * A booking that succeeded on one sheet succeeds on any sheet that differs
   * only in the pair, has the pair where it was with an empty start cell,
   * and has the same count for the day; both end with the same contents.
   */
  lemma InsertIntoClearedPair(g: Grid, h: Grid, name: string, day: string, startTime: string, endTime: string)
    requires InsertStep(g, name, day, startTime, endTime).outcome == Returned(UpdateSuccess)
    requires Slot(h, name, day) == Slot(g, name, day) && Slot(g, name, day).Some?
    requires h.rows == g.rows && h.cols == g.cols
    requires var start := Slot(g, name, day).value;
             h.Value(start) == "" && Bookings(h, start.col) == Bookings(g, start.col)
             && forall c :: c != start && c != EndOf(start) ==> h.Value(c) == g.Value(c)
    ensures InsertStep(h, name, day, startTime, endTime).outcome == Returned(UpdateSuccess)
    ensures InsertStep(h, name, day, startTime, endTime).after.SameContents(InsertStep(g, name, day, startTime, endTime).after)
  {
    InsertSuccessShape(g, name, day, startTime, endTime);
    var start := Slot(g, name, day).value;
    InsertReachesPlace(h, name, day, startTime, endTime);
    PlaceCodes(h, start, startTime, endTime);
    InsertWritesPair(g, name, day, startTime, endTime);
    InsertWritesPair(h, name, day, startTime, endTime);
  }

  /** Booking the start cell and then clearing the pair gives the day back its old count. */
  lemma RestoredBookings(g: Grid, h1: Grid, h2: Grid, start: Cell, startTime: string, endTime: string)
    requires g.InGrid(start) && g.InGrid(EndOf(start)) && g.Value(start) == ""
    requires h1 == g.Write(start, startTime).Write(EndOf(start), endTime)
    requires h2 == h1.Write(start, "").Write(EndOf(start), "")
    ensures Bookings(h2, start.col) == Bookings(g, start.col)
  {
    EmptyNotBooked();
    WriteBookings(g, start, startTime, start.col);
    WriteBookings(g.Write(start, startTime), EndOf(start), endTime, start.col);
    WriteBookings(h1, start, "", start.col);
    WriteBookings(h1.Write(start, ""), EndOf(start), "", start.col);
  }
}

=== FILE: text.dfy ===
/**
 * The handful of Python `str` and `int` operations the shift service relies on,
 * over `string` (a sequence of characters): `strip`, `replace`, `lower`, the
 * `in` substring test, `"sep".join`, `int(...)` and `str(...)` on integers.
 */
module Text {
  import opened Base

  // ---------------------------------------------------------------------------
  // Characters

  /** Whitespace as Python's `str.strip()` and `int()` see it (the Latin-1 part). */
  predicate IsSpace(c: char) {
    c == ' ' || c == '\t' || c == '\n' || c == '\r' || c == '\U{000B}' || c == '\U{000C}'
    || ('\U{001C}' <= c <= '\U{001F}') || c == '\U{0085}' || c == '\U{00A0}'
  }

  predicate IsDigit(c: char) {
    '0' <= c <= '9'
  }

  function DigitValue(c: char): nat
    requires IsDigit(c)
  {
    c as int - '0' as int
  }

  function DigitChar(d: nat): (c: char)
    requires d < 10
    ensures IsDigit(c) && DigitValue(c) == d
  {
    ('0' as int + d) as char
  }

  /** ASCII lower-casing, the case folding used for label matching. */
  function LowerChar(c: char): char {
    if 'A' <= c <= 'Z' then (c as int + 32) as char else c
  }

  function Lower(s: string): (r: string)
    ensures |r| == |s|
    ensures forall i :: 0 <= i < |s| ==> r[i] == LowerChar(s[i])
  {
    seq(|s|, i requires 0 <= i < |s| => LowerChar(s[i]))
  }

  // ---------------------------------------------------------------------------
  // strip()

  function StripLeft(s: string): (r: string)
    ensures |r| <= |s| && r == s[|s| - |r|..]
    ensures forall i :: 0 <= i < |s| - |r| ==> IsSpace(s[i])
    ensures r != [] ==> !IsSpace(r[0])
    decreases |s|
  {
    if s != [] && IsSpace(s[0]) then StripLeft(s[1..]) else s
  }

  function StripRight(s: string): (r: string)
    ensures |r| <= |s| && r == s[..|r|]
    ensures forall i :: |r| <= i < |s| ==> IsSpace(s[i])
    ensures r != [] ==> !IsSpace(r[|r| - 1])
    decreases |s|
  {
    if s != [] && IsSpace(s[|s| - 1]) then StripRight(s[..|s| - 1]) else s
  }

  /** Python's `s.strip()`: drop leading and trailing whitespace. */
  function Strip(s: string): string {
    StripRight(StripLeft(s))
  }

  /** `s.strip()` is falsy exactly when every character of `s` is whitespace. */
  lemma StripEmptyIff(s: string)
    ensures Strip(s) == [] <==> forall i :: 0 <= i < |s| ==> IsSpace(s[i])
  {
    var l := StripLeft(s);
    if Strip(s) != [] {
      var r := Strip(s);
      assert r[0] == l[0] == s[|s| - |l|];
    }
  }

  /** Every character of `s` is either whitespace or survives in `s.strip()`. */
  lemma StripKeeps(s: string, i: nat)
    requires i < |s|
    ensures IsSpace(s[i]) || s[i] in Strip(s)
  {
    var l := StripLeft(s);
    var r := Strip(s);
    var k := |s| - |l|;
    if !IsSpace(s[i]) {
      assert i >= k;
      assert l[i - k] == s[i];
      assert i - k < |r|;
      assert r[i - k] == s[i];
    }
  }

  /** Every character of `s.strip()` comes from `s`. */
  lemma StripFrom(s: string, c: char)
    requires c in Strip(s)
    ensures c in s
  {
    var l := StripLeft(s);
    var r := Strip(s);
    var j :| 0 <= j < |r| && r[j] == c;
    assert l[j] == c;
    assert s[|s| - |l| + j] == c;
  }

  // ---------------------------------------------------------------------------
  // Substrings: `t in s` and `s.startswith(t)`

  predicate StartsWith(s: string, t: string) {
    |t| <= |s| && s[..|t|] == t
  }

  /** Python's `t in s` on strings. */
  predicate Contains(s: string, t: string)
    decreases |s|
  {
    StartsWith(s, t) || (s != [] && Contains(s[1..], t))
  }

  /** Case-insensitive substring test: how a label is matched against a pattern. */
  predicate ContainsIgnoreCase(s: string, t: string) {
    Contains(Lower(s), Lower(t))
  }

  /** `t` occurs in `s` starting at index `k`. */
  predicate OccursAt(s: string, t: string, k: nat) {
    k + |t| <= |s| && s[k..k + |t|] == t
  }

  lemma {:induction false} ContainsAt(s: string, t: string, i: nat)
    requires OccursAt(s, t, i)
    ensures Contains(s, t)
    decreases i
  {
    if i > 0 {
      assert s[1..][i - 1..i - 1 + |t|] == s[i..i + |t|];
      ContainsAt(s[1..], t, i - 1);
    } else {
      assert s[..|t|] == t;
    }
  }

  /** A string lacking one of the characters of `t` does not contain `t`. */
  lemma {:induction false} MissingCharNotContained(s: string, t: string, k: nat)
    requires k < |t| && t[k] !in s
    ensures !Contains(s, t)
    decreases |s|
  {
    if |t| <= |s| {
      assert s[..|t|][k] == s[k];
    }
    if s != [] {
      MissingCharNotContained(s[1..], t, k);
    }
  }

  /** The empty string occurs in every string; only the empty string occurs in "". */
  lemma ContainsEmpty(s: string, t: string)
    ensures Contains(s, [])
    ensures Contains([], t) ==> t == []
  {
    assert StartsWith(s, []);
  }

  lemma ContainsMiddle(a: string, t: string, b: string)
    ensures Contains(a + t + b, t)
  {
    var s := a + t + b;
    assert s[|a|..|a| + |t|] == t;
    ContainsAt(s, t, |a|);
  }

  // ---------------------------------------------------------------------------
  // replace()

  /** Python's `s.replace(pat, sub)` for a non-empty pattern: left to right, non-overlapping. */
  function Replace(s: string, pat: string, sub: string): string
    requires pat != []
    decreases |s|
  {
    if s == [] then []
    else if StartsWith(s, pat) then sub + Replace(s[|pat|..], pat, sub)
    else [s[0]] + Replace(s[1..], pat, sub)
  }

  /** Removing a pattern introduces no new characters. */
  lemma {:induction false} RemoveFrom(s: string, pat: string, c: char)
    requires pat != [] && c in Replace(s, pat, [])
    ensures c in s
    decreases |s|
  {
    if StartsWith(s, pat) {
      RemoveFrom(s[|pat|..], pat, c);
    } else if c != s[0] {
      assert c in Replace(s[1..], pat, []);
      RemoveFrom(s[1..], pat, c);
    }
  }

  /** A character of `s` either survives the removal of `pat` or belongs to `pat`. */
  lemma {:induction false} RemoveKeeps(s: string, pat: string, c: char)
    requires pat != [] && c in s
    ensures c in Replace(s, pat, []) || c in pat
    decreases |s|
  {
    if StartsWith(s, pat) {
      var j :| 0 <= j < |s| && s[j] == c;
      if j < |pat| {
        assert pat[j] == c;
      } else {
        assert s[|pat|..][j - |pat|] == c;
        RemoveKeeps(s[|pat|..], pat, c);
      }
    } else if c != s[0] {
      assert c in s[1..];
      RemoveKeeps(s[1..], pat, c);
    }
  }

  /** A string without the pattern's first character is left as it is, even with a suffix. */
  lemma {:induction false} ReplaceSkips(x: string, y: string, pat: string, sub: string)
    requires pat != [] && pat[0] !in x
    ensures Replace(x + y, pat, sub) == x + Replace(y, pat, sub)
    decreases |x|
  {
    if x != [] {
      assert (x + y)[0] == x[0];
      assert !StartsWith(x + y, pat);
      assert (x + y)[1..] == x[1..] + y;
      ReplaceSkips(x[1..], y, pat, sub);
    } else {
      assert x + y == y;
    }
  }

  lemma ReplaceWhole(pat: string, sub: string)
    requires pat != []
    ensures Replace(pat, pat, sub) == sub
  {
    assert StartsWith(pat, pat);
    assert pat[|pat|..] == [];
  }

  // ---------------------------------------------------------------------------
  // "sep".join(xs)

  function Join(xs: seq<string>, sep: string): string
    decreases |xs|
  {
    if xs == [] then []
    else if |xs| == 1 then xs[0]
    else xs[0] + sep + Join(xs[1..], sep)
  }

  /** Every joined part appears in the result. */
  lemma {:induction false} JoinContains(xs: seq<string>, sep: string, i: nat)
    requires i < |xs|
    ensures Contains(Join(xs, sep), xs[i])
    decreases |xs|
  {
    if |xs| == 1 {
      ContainsMiddle([], xs[0], []);
      assert [] + xs[0] + [] == xs[0];
    } else if i == 0 {
      ContainsMiddle([], xs[0], sep + Join(xs[1..], sep));
      assert [] + xs[0] + (sep + Join(xs[1..], sep)) == Join(xs, sep);
    } else {
      JoinContains(xs[1..], sep, i - 1);
      var j := Join(xs[1..], sep);
      ContainsWitness(j, xs[i]);
      var k: nat :| OccursAt(j, xs[i], k);
      var pre := xs[0] + sep;
      assert Join(xs, sep) == pre + j;
      assert (pre + j)[|pre| + k..|pre| + k + |xs[i]|] == j[k..k + |xs[i]|];
      ContainsAt(Join(xs, sep), xs[i], |pre| + k);
    }
  }

  lemma {:induction false} ContainsWitness(s: string, t: string)
    requires Contains(s, t)
    ensures exists k: nat :: OccursAt(s, t, k)
    decreases |s|
  {
    if StartsWith(s, t) {
      assert OccursAt(s, t, 0);
    } else {
      ContainsWitness(s[1..], t);
      var k: nat :| OccursAt(s[1..], t, k);
      assert s[k + 1..k + 1 + |t|] == s[1..][k..k + |t|];
      assert OccursAt(s, t, k + 1);
    }
  }

  // ---------------------------------------------------------------------------
  // str(n) and int(s)

  /** Python's `str(n)` for a natural number: decimal digits, no leading zeros. */
  function NatToString(n: nat): (r: string)
    ensures r != [] && forall i :: 0 <= i < |r| ==> IsDigit(r[i])
    decreases n
  {
    if n < 10 then [DigitChar(n)] else NatToString(n / 10) + [DigitChar(n % 10)]
  }

  /** Python's `str(n)` (also `f"{n}"`) for any integer. */
  function IntToString(n: int): string {
    if n < 0 then "-" + NatToString(-n) else NatToString(n)
  }

  /** Digits with single underscores between them, as `int()` accepts. */
  predicate IsDigitString(t: string) {
    |t| > 0 && IsDigit(t[0]) && IsDigit(t[|t| - 1]) &&
    (forall i :: 0 <= i < |t| ==> IsDigit(t[i]) || t[i] == '_') &&
    (forall i :: 0 <= i < |t| - 1 && t[i] == '_' ==> t[i + 1] != '_')
  }

  lemma DigitStringChars(t: string, i: nat)
    requires IsDigitString(t) && i < |t|
    ensures IsDigit(t[i]) || t[i] == '_'
  {
  }

  /** The value of a digit string, underscores ignored. */
  function DigitsValue(t: string): nat
    decreases |t|
  {
    if t == [] then 0
    else if IsDigit(t[|t| - 1]) then 10 * DigitsValue(t[..|t| - 1]) + DigitValue(t[|t| - 1])
    else DigitsValue(t[..|t| - 1])
  }

  /** A character `int()` can accept: whitespace, a sign, a digit or an underscore. */
  predicate IsNumeralChar(c: char) {
    IsSpace(c) || IsDigit(c) || c == '+' || c == '-' || c == '_'
  }

  /** Python's `int(s)` on a string (ASCII digits); `None` where it raises `ValueError`. */
  function ParseInt(s: string): Option<int> {
    var t := Strip(s);
    if |t| > 0 && (t[0] == '+' || t[0] == '-') then
      if IsDigitString(t[1..]) then
        Some(if t[0] == '-' then -(DigitsValue(t[1..]) as int) else DigitsValue(t[1..]))
      else None
    else if IsDigitString(t) then Some(DigitsValue(t))
    else None
  }

  lemma {:induction false} DigitsValueOfString(n: nat)
    ensures DigitsValue(NatToString(n)) == n
    decreases n
  {
    var r := NatToString(n);
    if n >= 10 {
      DigitsValueOfString(n / 10);
      assert r[..|r| - 1] == NatToString(n / 10);
    } else {
      assert r[..0] == [];
    }
  }

  /** `int(str(n)) == n` for every natural number. */
  lemma ParseNatToString(n: nat)
    ensures ParseInt(NatToString(n)) == Some(n)
  {
    var r := NatToString(n);
    assert !IsSpace(r[0]) && !IsSpace(r[|r| - 1]);
    assert StripLeft(r) == r;
    assert StripRight(r) == r;
    DigitsValueOfString(n);
  }

  /** What `int()` accepts: numeral characters only, at least one of them a digit. */
  lemma ParseIntChars(s: string)
    requires ParseInt(s).Some?
    ensures forall i :: 0 <= i < |s| ==> IsNumeralChar(s[i])
    ensures exists i :: 0 <= i < |s| && IsDigit(s[i])
  {
    var t := Strip(s);
    forall i | 0 <= i < |s| ensures IsNumeralChar(s[i]) {
      StripKeeps(s, i);
      if !IsSpace(s[i]) {
        var j :| 0 <= j < |t| && t[j] == s[i];
        if t[0] == '+' || t[0] == '-' {
          assert IsDigitString(t[1..]);
          if j > 0 {
            assert t[1..][j - 1] == s[i];
            DigitStringChars(t[1..], j - 1);
          }
        } else {
          DigitStringChars(t, j);
        }
      }
    }
    var d := if t[0] == '+' || t[0] == '-' then t[1] else t[0];
    assert IsDigit(d) && d in t;
    StripFrom(s, d);
  }
}

=== FILE: validator.dfy ===
/**
 * The pure checks of the shift service: converting between "9am"/"5pm" style
 * times and 24-hour hours, the opening-hours window and the weekday names.
 */
module Validator {
  import opened Base
  import opened Text

  /** Default bounds of `_is_valid_time`: shifts lie between 9:00 and 18:00. */
  const MinHour := 9
  const MaxHour := 18

  /** The only day names `_is_valid_day` accepts, compared case-sensitively. */
  const Weekdays: seq<string> := ["Monday", "Tuesday", "Wednesday", "Thursday", "Friday"]

  /**
   * `to_24_hour_format`: strip every "am" and then every "pm", read what is
   * left with `int()`, and add 12 when the original contains "pm" and the
   * hour is not 12. `None` where `int()` raises. A time it reads holds only
   * numeral characters and the letters of the suffixes, and some digit.
   */
  function To24Hour(time: string): (r: Option<int>)
    ensures r.Some? ==> forall i :: 0 <= i < |time| ==> IsTimeChar(time[i])
    ensures r.Some? ==> exists i :: 0 <= i < |time| && IsDigit(time[i])
  {
    var hour := ParseInt(SuffixFree(time));
    if hour.None? then None
    else
      TimeChars(time);
      if Contains(time, "pm") && hour.value != 12 then Some(hour.value + 12)
      else hour
  }

  /**
   * `_to_12_hour_format`, given the hour already read as an integer: a numeral
   * followed by "pm" from noon on, by "am" before it.
   */
  function To12Hour(hour: int): (r: string)
    ensures |r| > 2
    ensures r[|r| - 2..] == "pm" <==> hour >= 12
    ensures r[|r| - 2..] == "am" <==> hour < 12
    ensures forall i :: 0 <= i < |r| - 2 ==> IsDigit(r[i]) || (i == 0 && r[i] == '-')
    ensures IsDigit(r[|r| - 3])
  {
    if hour == 0 then "12am"
    else if hour < 12 then IntToString(hour) + "am"
    else if hour == 12 then "12pm"
    else IntToString(hour - 12) + "pm"
  }

  predicate InWindow(hour: int) {
    MinHour <= hour <= MaxHour
  }

  /**
   * `_is_valid_time`: both times are read first (either read may raise, giving
   * `None`), then both must lie in the window and the end must come after the start.
   */
  function IsValidTime(startTime: string, endTime: string): (r: Option<bool>)
    ensures r.None? <==> To24Hour(startTime).None? || To24Hour(endTime).None?
    ensures r.Some? ==> (r.value <==> InWindow(To24Hour(startTime).value) && InWindow(To24Hour(endTime).value)
                                      && To24Hour(endTime).value > To24Hour(startTime).value)
  {
    match (To24Hour(startTime), To24Hour(endTime))
    case (Some(startHour), Some(endHour)) =>
      if startHour < MinHour || startHour > MaxHour then Some(false)
      else if endHour < MinHour || endHour > MaxHour then Some(false)
      else if endHour <= startHour then Some(false)
      else Some(true)
    case _ => None
  }

  /** `_is_valid_day`: exact, case-sensitive membership in the five weekday names. */
  predicate IsValidDay(day: string): (b: bool)
    ensures b ==> 6 <= |day| <= 9 && 'A' <= day[0] <= 'Z' && day[|day| - 3..] == "day"
    ensures b ==> forall i :: 0 <= i < |day| ==> 'A' <= day[i] <= 'Z' || 'a' <= day[i] <= 'z'
  {
    day in Weekdays
  }

  /** The day check is case-sensitive: no lower-cased weekday name passes it. */
  lemma DayIsCaseSensitive(day: string)
    requires IsValidDay(day)
    ensures !IsValidDay(Lower(day))
  {
    assert 'A' <= day[0] <= 'Z';
    assert Lower(day)[0] == LowerChar(day[0]);
  }

  /** A character that can appear in a time `To24Hour` reads: a numeral character or one of a, m, p. */
  predicate IsTimeChar(c: char) {
    IsNumeralChar(c) || c == 'a' || c == 'm' || c == 'p'
  }

  // ---------------------------------------------------------------------------
  // Reading times

  /** Digits followed by "am" read as the number the digits spell. */
  lemma AmTime(digits: string, n: int)
    requires ParseInt(digits) == Some(n) && 'a' !in digits && 'p' !in digits
    ensures To24Hour(digits + "am") == Some(n)
  {
    ReplaceSkips(digits, "am", "am", "");
    ReplaceWhole("am", "");
    assert digits + [] == digits;
    ReplaceSkips(digits, [], "pm", "");
    assert 'p' !in digits + "am";
    MissingCharNotContained(digits + "am", "pm", 0);
  }

  /** Digits followed by "pm" read as that number plus 12, unless the number is 12. */
  lemma PmTime(digits: string, n: int)
    requires ParseInt(digits) == Some(n) && 'a' !in digits && 'p' !in digits
    ensures To24Hour(digits + "pm") == Some(if n == 12 then 12 else n + 12)
  {
    ReplaceSkips(digits, "pm", "am", "");
    ReplaceSkips("pm", [], "am", "");
    assert "pm" + [] == "pm";
    ReplaceSkips(digits, "pm", "pm", "");
    ReplaceWhole("pm", "");
    assert digits + [] == digits;
    ContainsMiddle(digits, "pm", []);
    assert digits + "pm" + [] == digits + "pm";
  }

  /** "Nam" reads as N. */
  lemma AmHour(n: nat)
    ensures To24Hour(NatToString(n) + "am") == Some(n)
  {
    ParseNatToString(n);
    AmTime(NatToString(n), n);
  }

  /** "Npm" reads as N + 12, except "12pm", which reads as 12. */
  lemma PmHour(n: nat)
    ensures To24Hour(NatToString(n) + "pm") == Some(if n == 12 then 12 else n + 12)
  {
    ParseNatToString(n);
    PmTime(NatToString(n), n);
  }

  /** As written, "12am" reads as 12 (noon), not 0. */
  lemma TwelveAmIsTwelve()
    ensures To24Hour("12am") == Some(12)
  {
    assert NatToString(12) + "am" == "12am";
    AmHour(12);
  }

  lemma MorningRoundTrip(hour: int)
    requires 1 <= hour < 12
    ensures To24Hour(To12Hour(hour)) == Some(hour)
  {
    assert To12Hour(hour) == NatToString(hour) + "am";
    AmHour(hour);
  }

  lemma NoonRoundTrip()
    ensures To24Hour(To12Hour(12)) == Some(12)
  {
    assert To12Hour(12) == NatToString(12) + "pm";
    PmHour(12);
  }

  lemma AfternoonRoundTrip(hour: int)
    requires 12 < hour <= 23
    ensures To24Hour(To12Hour(hour)) == Some(hour)
  {
    assert To12Hour(hour) == NatToString(hour - 12) + "pm";
    PmHour(hour - 12);
  }

  /** Every hour from 1 to 23 survives the trip to 12-hour form and back. */
  lemma RoundTrip(hour: int)
    requires 1 <= hour <= 23
    ensures To24Hour(To12Hour(hour)) == Some(hour)
  {
    if hour < 12 {
      MorningRoundTrip(hour);
    } else if hour == 12 {
      NoonRoundTrip();
    } else {
      AfternoonRoundTrip(hour);
    }
  }

  /** Midnight does not: 0 becomes "12am", which reads back as 12. */
  lemma MidnightReadsAsNoon()
    ensures To24Hour(To12Hour(0)) == Some(12)
  {
    assert To12Hour(0) == "12am";
    TwelveAmIsTwelve();
  }

  /** The remainder after removing both suffixes: the string `int()` is given. */
  function SuffixFree(time: string): string {
    Replace(Replace(time, "am", ""), "pm", "")
  }

  /** Each character of a time survives the removal of the suffixes or is a suffix letter. */
  lemma SuffixFreeKeeps(time: string, c: char)
    requires c in time
    ensures c in SuffixFree(time) || c == 'a' || c == 'm' || c == 'p'
  {
    RemoveKeeps(time, "am", c);
    if c in Replace(time, "am", "") {
      RemoveKeeps(Replace(time, "am", ""), "pm", c);
    }
  }

  /** Removing the suffixes introduces no character. */
  lemma SuffixFreeFrom(time: string, c: char)
    requires c in SuffixFree(time)
    ensures c in time
  {
    RemoveFrom(Replace(time, "am", ""), "pm", c);
    RemoveFrom(time, "am", c);
  }

  /** A time whose suffix-free remainder `int()` reads holds only time characters, and at least one digit. */
  lemma TimeChars(time: string)
    requires ParseInt(SuffixFree(time)).Some?
    ensures forall i :: 0 <= i < |time| ==> IsTimeChar(time[i])
    ensures exists i :: 0 <= i < |time| && IsDigit(time[i])
  {
    var body := SuffixFree(time);
    ParseIntChars(body);
    forall i | 0 <= i < |time| ensures IsTimeChar(time[i]) {
      SuffixFreeKeeps(time, time[i]);
    }
    var j :| 0 <= j < |body| && IsDigit(body[j]);
    SuffixFreeFrom(time, body[j]);
  }

  /**
   * A time holding any character other than a numeral character or a, m, p
   * (so "N/A", or "9AM" with its upper-case suffix) makes the read fail.
   */
  lemma NotANumber(time: string, i: nat)
    requires i < |time| && !IsTimeChar(time[i])
    ensures To24Hour(time).None?
  {
  }

  /** A time that reads as an hour is a non-blank string. */
  lemma TimeIsFilled(time: string)
    requires To24Hour(time).Some?
    ensures time != "" && Strip(time) != ""
  {
    var j :| 0 <= j < |time| && IsDigit(time[j]);
    assert !IsSpace(time[j]);
    StripEmptyIff(time);
  }

  /** Every weekday name has a 'd' in it. */
  lemma DayLetterD(day: string) returns (k: nat)
    requires IsValidDay(day)
    ensures k < |day| && day[k] == 'd'
  {
    if day == "Monday" || day == "Friday" {
      k := 3;
    } else if day == "Tuesday" {
      k := 4;
    } else if day == "Wednesday" {
      k := 2;
    } else {
      k := 5;
    }
  }

  lemma TimeCharNotD(c: char)
    requires IsTimeChar(c)
    ensures LowerChar(c) != 'd'
  {
  }

  /** A time that reads as an hour contains no 'd', so no pattern with a 'd' in it. */
  lemma TimeLacksD(time: string, pattern: string, k: nat)
    requires To24Hour(time).Some? && k < |pattern| && pattern[k] == 'd'
    ensures !ContainsIgnoreCase(time, pattern)
  {
    var lowered := Lower(time);
    forall i | 0 <= i < |lowered| ensures lowered[i] != 'd' {
      TimeCharNotD(time[i]);
    }
    assert Lower(pattern)[k] == 'd';
    MissingCharNotContained(lowered, Lower(pattern), k);
  }

  /** A time that reads as an hour never contains a weekday name, in any case. */
  lemma TimeIsNotADay(time: string, day: string)
    requires To24Hour(time).Some? && IsValidDay(day)
    ensures !ContainsIgnoreCase(time, day)
  {
    var k := DayLetterD(day);
    TimeLacksD(time, day, k);
  }

  // ---------------------------------------------------------------------------
  // The window

  /** Any start and end inside the window, end after start, written in 12-hour form, are accepted. */
  lemma WindowAccepted(startHour: int, endHour: int)
    requires MinHour <= startHour < endHour <= MaxHour
    ensures IsValidTime(To12Hour(startHour), To12Hour(endHour)) == Some(true)
  {
    RoundTrip(startHour);
    RoundTrip(endHour);
    HoursAccepted(To12Hour(startHour), To12Hour(endHour), startHour, endHour);
  }

  /** Times that read as ordered hours inside the window are accepted. */
  lemma HoursAccepted(startTime: string, endTime: string, startHour: int, endHour: int)
    requires To24Hour(startTime) == Some(startHour) && To24Hour(endTime) == Some(endHour)
    requires MinHour <= startHour < endHour <= MaxHour
    ensures IsValidTime(startTime, endTime) == Some(true)
  {
  }

  /** Hours outside the window, or an end not after the start, are refused. */
  lemma WindowRejected(startTime: string, endTime: string)
    requires To24Hour(startTime).Some? && To24Hour(endTime).Some?
    requires !InWindow(To24Hour(startTime).value) || !InWindow(To24Hour(endTime).value)
             || To24Hour(endTime).value <= To24Hour(startTime).value
    ensures IsValidTime(startTime, endTime) == Some(false)
  {
  }
}

=== FILE: webhook_server.dfy ===
/**
 * The message dispatcher of the webhook server. An incoming Messenger event
 * carries a sender and a text; the text has already been turned into a list
 * of shift candidates (action, day, start, end) and the sender into a first
 * name. Each candidate is applied to the store in order and answered with one
 * reply line; the replies are joined and sent back to the sender as one
 * message. An exception anywhere ends the processing and nothing is sent.
 *
 * The reply literals are written as the server's source holds them: the
 * check-mark, cross, calendar and clock emoji appear there as the UTF-8 bytes
 * of the emoji read as Windows-1252 text, and the constants below carry those
 * characters.
 */
module Webhook {
  import opened Base
  import opened Text
  import opened Sheet
  import Store = ShiftService

  // ---------------------------------------------------------------------------
  // Inputs and outputs

  /** One shift request extracted from the user's text. */
  datatype Candidate = Candidate(action: string, day: string, startTime: string, endTime: string)

  /** The first entry of `messaging` in the event: its sender id and message text, where present. */
  datatype Message = Message(senderId: Option<string>, text: Option<string>)

  /** An incoming event; `messaging` is None when `entry[0].messaging[0]` is missing. */
  datatype Event = Event(messaging: Option<Message>)

  /** A message sent back through the Messenger API. */
  datatype Outgoing = Outgoing(recipient: string, text: string)

  /** The reply to one candidate (None when handling it raised) and the sheet afterwards. */
  datatype Reply = Reply(text: Option<string>, after: Grid)

  /** The replies to a run of candidates (None when one of them raised) and the sheet afterwards. */
  datatype Run = Run(replies: Option<seq<string>>, after: Grid)

  /** What processing an event sends (None: nothing) and the sheet afterwards. */
  datatype Delivery = Delivery(sent: Option<Outgoing>, after: Grid)

  // ---------------------------------------------------------------------------
  // Reply texts

  /** The prefixes, as the characters the source file holds. */
  const DoneMark := "\U{00E2}\U{0153}\U{2026}"
  const ErrorMark := "\U{00E2}\U{0152}"
  const DayMark := "\U{00F0}\U{0178}\U{201C}\U{2026}"
  const StartMark := "\U{00F0}\U{0178}\U{2022}"
  const EndMark := "\U{00F0}\U{0178}\U{2022}\U{2018}"

  /** The user-facing message for each error code of the store. */
  const ErrorMessages: map<Store.Code, string> := map[
    Store.ErrorInvalidName := "I couldn't find your name in the system. Please contact an admin.",
    Store.ErrorInvalidTime := "The times you provided are invalid. Please use times between 9am and 6pm, and make sure the end time is after the start time.",
    Store.ErrorEntryExists := "You already have a shift scheduled for this day. Please request to update it if needed.",
    Store.ErrorDayLimitReached := "Sorry, this day is already fully booked. Please choose another day."
  ]

  /** The entry meant for a candidate whose action is neither "add" nor "delete". */
  const InvalidActionMessage := "The action you requested is invalid. Please specify 'add' or 'delete'."

  /** The default of the table lookup, for a code without an entry. */
  const UnknownError := "An unknown error occurred. Please try again."

  /** Sent when no candidate was extracted. */
  const Fallback := "I couldn't process your request. Please try again."

  /** Between two replies of one message. */
  const Separator := "\n\n"

  /**
   * `ERROR_MESSAGES.get(code, default)`: the table's entry for a code it
   * holds, and the default, which no entry repeats, for any other.
   */
  function ErrorMessage(code: Store.Code): (msg: string)
    ensures code in ErrorMessages <==> msg != UnknownError
    ensures code in ErrorMessages ==> msg in ErrorMessages.Values
  {
    if code in ErrorMessages then ErrorMessages[code] else UnknownError
  }

  /** A reply line reporting a failure. */
  function ErrorText(msg: string): string {
    ErrorMark + " " + msg
  }

  /** The confirmation of a booking. */
  function ScheduledText(name: string, day: string, startTime: string, endTime: string): string {
    DoneMark + " All set, " + name + "! Your shift has been scheduled:\n"
    + DayMark + " Day: " + day + "\n"
    + StartMark + " Start: " + startTime + "\n"
    + EndMark + " End: " + endTime
  }

  /** The confirmation of a deletion. */
  function RemovedText(name: string, day: string): string {
    DoneMark + " Done, " + name + "! Your shift on " + day + " has been removed."
  }

  /**
   * The server's `insert_shift`: the reply for the code the store returned. It
   * confirms, starting with the check mark, exactly on success, and then names
   * the employee, the day and both times.
   */
  function InsertText(name: string, day: string, startTime: string, endTime: string, code: Store.Code): (t: string)
    ensures StartsWith(t, DoneMark) <==> code == Store.UpdateSuccess
    ensures code == Store.UpdateSuccess ==>
      Contains(t, name) && Contains(t, day) && Contains(t, startTime) && Contains(t, endTime)
  {
    MarksDiffer(name, day, startTime, endTime, ErrorMessage(code));
    ScheduledTextNamesShift(name, day, startTime, endTime);
    if code == Store.UpdateSuccess then ScheduledText(name, day, startTime, endTime)
    else ErrorText(ErrorMessage(code))
  }

  /**
   * The server's `delete_shift`: the reply for the code the store returned. It
   * confirms exactly on success, and then names the employee and the day.
   */
  function DeleteText(name: string, day: string, code: Store.Code): (t: string)
    ensures StartsWith(t, DoneMark) <==> code == Store.DeleteSuccess
    ensures code == Store.DeleteSuccess ==> Contains(t, name) && Contains(t, day)
  {
    MarksDiffer(name, day, "", "", ErrorMessage(code));
    RemovedTextNamesShift(name, day);
    if code == Store.DeleteSuccess then RemovedText(name, day)
    else ErrorText(ErrorMessage(code))
  }

  // ---------------------------------------------------------------------------
  // Dispatch, as functions of the sheet's contents

  /**
   * One pass of the loop body: apply the candidate's action and produce its
   * reply. Only "add" and "delete" reach the store, so only they can raise
   * or change the sheet, and the sheet keeps its size.
   */
  function Handle(g: Grid, name: string, c: Candidate): (r: Reply)
    ensures r.after.rows == g.rows && r.after.cols == g.cols
    ensures r.text.None? ==> c.action == "add" || c.action == "delete"
    ensures r.after != g ==> c.action == "add" || c.action == "delete"
  {
    if c.action == "add" then
      var step := Store.InsertStep(g, name, c.day, c.startTime, c.endTime);
      match step.outcome
        case Raised => Reply(None, step.after)
        case Returned(code) => Reply(Some(InsertText(name, c.day, c.startTime, c.endTime, code)), step.after)
    else if c.action == "delete" then
      var step := Store.DeleteStep(g, name, c.day);
      match step.outcome
        case Raised => Reply(None, step.after)
        case Returned(code) => Reply(Some(DeleteText(name, c.day, code)), step.after)
    else Reply(Some(ErrorText(InvalidActionMessage)), g)
  }

  /** `Handle` for a fixed sender name, as the handler the loop applies. */
  function Handler(name: string): (Grid, Candidate) -> Reply {
    (g: Grid, c: Candidate) => Handle(g, name, c)
  }

  /**
   * The loop over the candidates, for a handler of one candidate: the replies
   * in order, each candidate handled on the sheet its predecessors left,
   * stopping at the first that raises.
   */
  function Dispatch(handle: (Grid, Candidate) -> Reply, g: Grid, cs: seq<Candidate>): (r: Run)
    ensures r.replies.Some? ==> |r.replies.value| == |cs|
    ensures r.replies.None? ==> cs != []
    decreases |cs|
  {
    if cs == [] then Run(Some([]), g)
    else
      var r := Dispatch(handle, g, cs[..|cs| - 1]);
      if r.replies.None? then r
      else
        var h := handle(r.after, cs[|cs| - 1]);
        if h.text.None? then Run(None, h.after)
        else Run(Some(r.replies.value + [h.text.value]), h.after)
  }

  /**
   * `process_message`, with the extracted candidates and the sender's first
   * name given: nothing is sent when the event lacks its messaging entry, the
   * message text or the sender id, or when handling raised; otherwise the
   * joined replies, or the fallback when there are none.
   */
  function Process(g: Grid, event: Event, name: string, cs: seq<Candidate>): (d: Delivery)
    ensures d.sent.Some? ==>
      event.messaging.Some? && event.messaging.value.text.Some?
      && event.messaging.value.senderId == Some(d.sent.value.recipient)
    ensures d.sent.Some? && cs == [] ==> d.sent.value.text == Fallback
  {
    match event.messaging
      case None => Delivery(None, g)
      case Some(m) =>
        if m.text.None? || m.senderId.None? then Delivery(None, g)
        else
          var r := Dispatch(Handler(name), g, cs);
          if r.replies.None? then Delivery(None, r.after)
          else if r.replies.value == [] then Delivery(Some(Outgoing(m.senderId.value, Fallback)), r.after)
          else Delivery(Some(Outgoing(m.senderId.value, Join(r.replies.value, Separator))), r.after)
  }

  // ---------------------------------------------------------------------------
  // The server's functions on the shared worksheet

  /** `insert_shift`: call the store, turn its code into a reply; None when the store raised. */
  method InsertShift(ws: Worksheet, name: string, day: string, startTime: string, endTime: string)
    returns (reply: Option<string>)
    modifies ws
    ensures Reply(reply, ws.View()) == Handle(old(ws.View()), name, Candidate("add", day, startTime, endTime))
  {
    var result := Store.InsertShift(ws, name, day, startTime, endTime);
    match result {
      case Raised => reply := None;
      case Returned(code) => reply := Some(InsertText(name, day, startTime, endTime, code));
    }
  }

  /** `delete_shift`: call the store, turn its code into a reply; None when the store raised. */
  method DeleteShift(ws: Worksheet, name: string, day: string) returns (reply: Option<string>)
    modifies ws
    ensures Reply(reply, ws.View()) == Handle(old(ws.View()), name, Candidate("delete", day, "", ""))
  {
    var result := Store.DeleteShift(ws, name, day);
    match result {
      case Raised => reply := None;
      case Returned(code) => reply := Some(DeleteText(name, day, code));
    }
  }

  /** The body of the loop in `process_message`: dispatch one candidate on its action. */
  method HandleCandidate(ws: Worksheet, name: string, c: Candidate) returns (reply: Option<string>)
    modifies ws
    ensures Reply(reply, ws.View()) == Handler(name)(old(ws.View()), c)
  {
    if c.action == "add" {
      reply := InsertShift(ws, name, c.day, c.startTime, c.endTime);
    } else if c.action == "delete" {
      reply := DeleteShift(ws, name, c.day);
    } else {
      reply := Some(ErrorText(InvalidActionMessage));
    }
  }

  /**
   * The loop of `process_message`: handle each candidate in order, collecting
   * its reply; None as soon as one raises.
   */
  method RunCandidates(ws: Worksheet, name: string, cs: seq<Candidate>) returns (replies: Option<seq<string>>)
    modifies ws
    ensures Run(replies, ws.View()) == Dispatch(Handler(name), old(ws.View()), cs)
  {
    var collected: seq<string> := [];
    var i := 0;
    while i < |cs|
      invariant 0 <= i <= |cs|
      invariant Dispatch(Handler(name), old(ws.View()), cs[..i]) == Run(Some(collected), ws.View())
    {
      var reply := HandleCandidate(ws, name, cs[i]);
      assert cs[..i + 1][..i] == cs[..i];
      if reply.None? {
        DispatchStopsAtRaise(Handler(name), old(ws.View()), cs, i + 1);
        assert cs[..|cs|] == cs;
        return None;
      }
      collected := collected + [reply.value];
      i := i + 1;
    }
    assert cs[..i] == cs;
    return Some(collected);
  }

  /** `process_message`: the loop over the candidates, then one send. */
  method ProcessMessage(ws: Worksheet, event: Event, name: string, cs: seq<Candidate>)
    returns (sent: Option<Outgoing>)
    modifies ws
    ensures Delivery(sent, ws.View()) == Process(old(ws.View()), event, name, cs)
  {
    if event.messaging.None? || event.messaging.value.text.None? || event.messaging.value.senderId.None? {
      return None;
    }
    var senderId := event.messaging.value.senderId.value;
    var replies := RunCandidates(ws, name, cs);
    if replies.None? {
      return None;
    }
    if replies.value == [] {
      sent := Some(Outgoing(senderId, Fallback));
    } else {
      sent := Some(Outgoing(senderId, Join(replies.value, Separator)));
    }
  }

  // ---------------------------------------------------------------------------
  // Properties of the dispatch

  /** Once a candidate raises, the later ones are not handled: the run ends where that one left it. */
  lemma {:induction false} DispatchStopsAtRaise(handle: (Grid, Candidate) -> Reply, g: Grid, cs: seq<Candidate>, k: nat)
    requires k <= |cs|
    requires Dispatch(handle, g, cs[..k]).replies.None?
    ensures Dispatch(handle, g, cs) == Dispatch(handle, g, cs[..k])
    decreases |cs| - k
  {
    if k < |cs| {
      assert cs[..|cs| - 1][..k] == cs[..k];
      DispatchStopsAtRaise(handle, g, cs[..|cs| - 1], k);
    } else {
      assert cs[..k] == cs;
    }
  }

  /**
   * A run that raises nowhere has exactly one reply per candidate, in candidate
   * order: the i-th reply is the i-th candidate's, handled on the sheet the
   * first i candidates left.
   */
  lemma {:induction false} OneReplyPerCandidate(handle: (Grid, Candidate) -> Reply, g: Grid, cs: seq<Candidate>)
    requires Dispatch(handle, g, cs).replies.Some?
    ensures |Dispatch(handle, g, cs).replies.value| == |cs|
    ensures forall i :: 0 <= i < |cs| ==>
      Dispatch(handle, g, cs[..i]).replies.Some?
      && handle(Dispatch(handle, g, cs[..i]).after, cs[i]).text == Some(Dispatch(handle, g, cs).replies.value[i])
    decreases |cs|
  {
    if cs != [] {
      var front := cs[..|cs| - 1];
      OneReplyPerCandidate(handle, g, front);
      forall i | 0 <= i < |cs|
        ensures Dispatch(handle, g, cs[..i]).replies.Some?
        ensures handle(Dispatch(handle, g, cs[..i]).after, cs[i]).text == Some(Dispatch(handle, g, cs).replies.value[i])
      {
        if i < |cs| - 1 {
          assert front[..i] == cs[..i];
        } else {
          assert cs[..i] == front;
        }
      }
    }
  }

  /** A run raises exactly when some candidate raises on the sheet its predecessors left. */
  lemma {:induction false} RaisesIff(handle: (Grid, Candidate) -> Reply, g: Grid, cs: seq<Candidate>)
    ensures Dispatch(handle, g, cs).replies.None? <==>
      exists i :: 0 <= i < |cs| && Dispatch(handle, g, cs[..i]).replies.Some?
                  && handle(Dispatch(handle, g, cs[..i]).after, cs[i]).text.None?
    decreases |cs|
  {
    if cs != [] {
      var front := cs[..|cs| - 1];
      RaisesIff(handle, g, front);
      if Dispatch(handle, g, front).replies.None? {
        var i :| 0 <= i < |front| && Dispatch(handle, g, front[..i]).replies.Some?
                 && handle(Dispatch(handle, g, front[..i]).after, front[i]).text.None?;
        assert front[..i] == cs[..i];
      } else {
        forall i | 0 <= i < |cs| - 1
          ensures !(Dispatch(handle, g, cs[..i]).replies.Some?
                    && handle(Dispatch(handle, g, cs[..i]).after, cs[i]).text.None?)
        {
          assert front[..i] == cs[..i];
        }
        assert cs[..|cs| - 1] == front;
      }
    }
  }

  /** A candidate whose action is neither "add" nor "delete" gets the invalid-action reply and leaves the sheet as it was. */
  lemma InvalidActionTouchesNothing(g: Grid, name: string, c: Candidate)
    requires c.action != "add" && c.action != "delete"
    ensures Handler(name)(g, c) == Reply(Some(ErrorText(InvalidActionMessage)), g)
  {
  }

  /** A run of such candidates answers each with the invalid-action reply and leaves the sheet untouched. */
  lemma {:induction false} InvalidActionsTouchNothing(g: Grid, name: string, cs: seq<Candidate>)
    requires forall i :: 0 <= i < |cs| ==> cs[i].action != "add" && cs[i].action != "delete"
    ensures var r := Dispatch(Handler(name), g, cs);
            r.after == g && r.replies.Some? && |r.replies.value| == |cs|
            && forall i :: 0 <= i < |cs| ==> r.replies.value[i] == ErrorText(InvalidActionMessage)
    decreases |cs|
  {
    if cs != [] {
      var front := cs[..|cs| - 1];
      InvalidActionsTouchNothing(g, name, front);
      InvalidActionTouchesNothing(g, name, cs[|cs| - 1]);
    }
  }

  /**
   * The store only ever returns codes the reply table knows: a failed
   * insertion or deletion is never answered with the unknown-error default.
   */
  lemma StoreCodesHaveMessages(g: Grid, name: string, day: string, startTime: string, endTime: string)
    ensures var r := Store.InsertStep(g, name, day, startTime, endTime).outcome;
            r.Returned? && r.value != Store.UpdateSuccess ==> r.value in ErrorMessages
    ensures var r := Store.DeleteStep(g, name, day).outcome;
            r.Returned? && r.value != Store.DeleteSuccess ==> r.value in ErrorMessages
  {
  }

  /** The table gives each failure its own message: two different codes never share one. */
  lemma DistinctMessages(a: Store.Code, b: Store.Code)
    requires a in ErrorMessages && b in ErrorMessages && a != b
    ensures ErrorMessage(a) != ErrorMessage(b)
  {
  }

  /** Each variable part of a text assembled from fixed and variable parts occurs in it. */
  lemma PartsOccur(a1: string, x1: string, a2: string, x2: string, a3: string, x3: string, a4: string, x4: string)
    ensures var t := a1 + x1 + a2 + x2 + a3 + x3 + a4 + x4;
            Contains(t, x1) && Contains(t, x2) && Contains(t, x3) && Contains(t, x4)
  {
    var t := a1 + x1 + a2 + x2 + a3 + x3 + a4 + x4;
    assert t == a1 + x1 + (a2 + x2 + a3 + x3 + a4 + x4);
    ContainsMiddle(a1, x1, a2 + x2 + a3 + x3 + a4 + x4);
    assert t == (a1 + x1 + a2) + x2 + (a3 + x3 + a4 + x4);
    ContainsMiddle(a1 + x1 + a2, x2, a3 + x3 + a4 + x4);
    assert t == (a1 + x1 + a2 + x2 + a3) + x3 + (a4 + x4);
    ContainsMiddle(a1 + x1 + a2 + x2 + a3, x3, a4 + x4);
    assert t == (a1 + x1 + a2 + x2 + a3 + x3 + a4) + x4 + [];
    ContainsMiddle(a1 + x1 + a2 + x2 + a3 + x3 + a4, x4, []);
  }

  /** Confirmations start with the check mark; error replies do not. */
  lemma MarksDiffer(name: string, day: string, startTime: string, endTime: string, msg: string)
    ensures StartsWith(ScheduledText(name, day, startTime, endTime), DoneMark)
    ensures StartsWith(RemovedText(name, day), DoneMark)
    ensures !StartsWith(ErrorText(msg), DoneMark)
  {
    assert ErrorText(msg)[1] == ErrorMark[1] != DoneMark[1];
  }

  /** The booking confirmation names the employee, the day and both times. */
  lemma ScheduledTextNamesShift(name: string, day: string, startTime: string, endTime: string)
    ensures var t := ScheduledText(name, day, startTime, endTime);
            Contains(t, name) && Contains(t, day) && Contains(t, startTime) && Contains(t, endTime)
  {
    var a1, a2 := DoneMark + " All set, ", "! Your shift has been scheduled:\n" + DayMark + " Day: ";
    var a3, a4 := "\n" + StartMark + " Start: ", "\n" + EndMark + " End: ";
    assert ScheduledText(name, day, startTime, endTime) == a1 + name + a2 + day + a3 + startTime + a4 + endTime;
    PartsOccur(a1, name, a2, day, a3, startTime, a4, endTime);
  }

  /** The removal confirmation names the employee and the day. */
  lemma RemovedTextNamesShift(name: string, day: string)
    ensures Contains(RemovedText(name, day), name) && Contains(RemovedText(name, day), day)
  {
    var a1, a2, a3 := DoneMark + " Done, ", "! Your shift on ", " has been removed.";
    assert RemovedText(name, day) == a1 + name + a2 + day + a3 + [] + [] + [];
    PartsOccur(a1, name, a2, day, a3, [], [], []);
  }

  /** An event without a message text (or without its messaging entry or sender) sends nothing and changes nothing. */
  lemma NoTextNothingSent(g: Grid, event: Event, name: string, cs: seq<Candidate>)
    requires event.messaging.None? || event.messaging.value.text.None? || event.messaging.value.senderId.None?
    ensures Process(g, event, name, cs) == Delivery(None, g)
  {
  }

  /** With no candidates, exactly the fallback is sent to the sender and the sheet is untouched. */
  lemma NoCandidatesFallback(g: Grid, sender: string, text: string, name: string)
    ensures Process(g, Event(Some(Message(Some(sender), Some(text)))), name, [])
            == Delivery(Some(Outgoing(sender, Fallback)), g)
  {
  }

  /**
   * For a message with text, something is sent exactly when no candidate
   * raised; it goes to the sender, and every reply appears in it.
   */
  lemma SentIffNoRaise(g: Grid, sender: string, text: string, name: string, cs: seq<Candidate>)
    ensures var d := Process(g, Event(Some(Message(Some(sender), Some(text)))), name, cs);
            var r := Dispatch(Handler(name), g, cs);
            (d.sent.Some? <==> r.replies.Some?) && d.after == r.after
            && (d.sent.Some? ==> d.sent.value.recipient == sender)
            && (d.sent.Some? ==> forall i :: 0 <= i < |r.replies.value| ==> Contains(d.sent.value.text, r.replies.value[i]))
  {
    var r := Dispatch(Handler(name), g, cs);
    if r.replies.Some? && r.replies.value != [] {
      forall i | 0 <= i < |r.replies.value|
        ensures Contains(Join(r.replies.value, Separator), r.replies.value[i])
      {
        JoinContains(r.replies.value, Separator, i);
      }
    }
  }
}
